=== FILE: README.md ===
# Staff-engagement app core, modelled in Dafny

This project models the decision logic of a retail staff-engagement web app.
Employees clock in and out, send each other "thanks" and "good job" points
under a daily allowance, and work on daily store missions. They also receive
notifications. Administrators create user accounts.

The hosted database is modelled as in-memory sequences of rows. The record
shapes come from `types/index.ts`. Every answer from an adapter is a
parameter of the operation that awaits it. This covers a query that failed,
an insert that was rejected, an awaited call that threw, and the id and
instant the database assigns.

Time is an integer instant in milliseconds since the epoch. `DayOf` maps an
instant to its UTC calendar day. The "today" queries compare against
`StartOfDay(now)`.

Modules, one per component:

- `Wrappers`: `Option`, `Step` (an awaited call that returned or threw) and `Written` (a table write and its success flag).
- `Text`: decimal rendering of integers, as template literals print them, and its inverse parser.
- `Domain`: the records (users, stores, point transactions, attendance records, missions, notifications, point summaries) and the day arithmetic.
- `PointLedger`: the daily remaining allowance, the point history query, `sendPoints` and the point-summary fallback.
- `Notifications`: `createNotification`, the unread count, and marking a notification read.
- `Missions`: `createMission` defaults and `updateMissionProgress`.
- `Users`: `createUser` defaults.
- `ClientStores`: the auth, attendance and unread-counter stores as state-to-state functions.
- `AccessGate`: the initial auth check, the auth-state listener, the redirect decision and the render gate.
- `UserActions`: the admin create-user action. It writes to the identity provider, then to the `users` table.
- `Display`: the avatar emoji, the unread badge label, `timeAgo` bucketing and the bottom-navigation active flag.

The model follows the code in three places where stricter behaviour might be expected:

- A completed mission is not sticky. Updating it with a lower value sets it back to `active`, and so does a failed target lookup.
- `sendPoints` checks neither the daily allowance nor sending to oneself.
- The attendance store's `clockIn` does not check for a record that is already open.

## Model

| member | source | states |
|---|---|---|
| `Domain.StartOfDay` | lib/database.ts:191 | the cutoff is midnight of the current UTC day: a whole number of days since the epoch, no later than `now` and less than a day before it |
| `Domain.OnOrAfterStartOfDayIff` | lib/database.ts:191-197 | `created_at >= start of today` holds exactly when the row's calendar day is today or later |
| `PointLedger.SentTodayRows` | lib/database.ts:193-197 | the allowance query returns exactly the rows sent by the user at or after the start of today |
| `PointLedger.SentTodayRowsCounts` | lib/database.ts:193-197 | each row sent by the user today is returned exactly as often as it occurs in the ledger, and no other row is returned |
| `PointLedger.TodayRemaining` | lib/database.ts:190-203 | the full `dailyLimit` when the query fails; otherwise never negative, `dailyLimit - sent` when positive, and 0 only when today's sends reach the limit |
| `PointLedger.TodayRemainingByReduce` | lib/database.ts:193-202 | the filter-then-`reduce` computation equals the reference definition `max(0, dailyLimit - Σ points sent today)` |
| `PointLedger.SumPointsAppend` | lib/database.ts:201 | the sum of points over two concatenated row lists is the sum of the two sums |
| `PointLedger.SentTodayRowsAppend` | lib/database.ts:196-197 | filtering concatenated row lists is concatenating the filtered lists |
| `PointLedger.OtherSendersAndPastDaysIgnored` | lib/database.ts:196-202 | inserting transactions by other senders, or dated before today, anywhere in the ledger leaves the remaining allowance unchanged |
| `PointLedger.TodaySendLowersRemaining` | lib/database.ts:196-202 | appending a today-send of `p >= 0` points turns remaining `r` into `max(0, r - p)`, so the allowance never increases |
| `PointLedger.TodaySendAddsToTotal` | lib/database.ts:196-201 | a send by the user dated today adds exactly its points to today's total |
| `PointLedger.NewDayRestoresLimit` | lib/database.ts:191-202 | when every transaction is from an earlier day, the whole limit (floored at 0) is available |
| `PointLedger.RemainingWithinLimit` | lib/database.ts:190-202 | with non-negative points the allowance never exceeds the limit; with the default limit it lies in [0, 50] even when the query fails |
| `PointLedger.HistoryRows` | lib/database.ts:158-164 | `'sent'` keeps exactly the rows sent by the user, `'received'` the rows received, and no type the rows on either side, each as often as it occurs in the ledger |
| `PointLedger.InsertByDate` | lib/database.ts:155 | inserting into a newest-first list keeps it newest-first and adds exactly the one row |
| `PointLedger.OrderNewestFirst` | lib/database.ts:155 | the ordering is newest-first and a permutation of its input |
| `PointLedger.PrefixKeepsNewest` | lib/database.ts:155-156 | cutting a newest-first ordering after `k` rows drops no row newer than a kept one |
| `PointLedger.NewestRows` | lib/database.ts:155-156 | the kept rows number `min(50, matching)`, are newest-first, come from the selection, and nothing dropped is newer than anything kept |
| `PointLedger.PointHistory` | lib/database.ts:146-167 | empty on query failure; otherwise `min(50, matching)` of the matching rows, each at most as often as it matches, newest first, and the newest ones |
| `PointLedger.SendPoints` | lib/database.ts:110-144 | an insert failure returns false and writes nothing; otherwise exactly one transaction is appended with the given fields, one unread `point_received` notification for the recipient (title by point type) is appended when its insert succeeds, and the result is true either way |
| `PointLedger.SendLowersSenderAllowance` | lib/database.ts:119-143 | after a successful send the sender's remaining allowance for that day drops by exactly the points sent, floored at 0 |
| `PointLedger.SendNotifiesRecipientOnce` | lib/database.ts:136-141 | a successful send raises the recipient's unread count by one when the notification is stored and by zero otherwise; other users' counts do not change |
| `PointLedger.SendIgnoresExhaustedAllowance` | lib/database.ts:110-143 | with the allowance already at 0 a send still succeeds, and today's total then exceeds the default limit |
| `PointLedger.SummariesOf` | lib/database.ts:178-182 | the summaries returned for a user are exactly the view rows for that user, each as often as it occurs in the view |
| `PointLedger.GetPointSummary` | lib/database.ts:177-188 | all-zero counters when the query fails or `.single()` does not find exactly one row; otherwise the user's own row |
| `Notifications.CountUnread` | lib/database.ts:462-467 | the unread count is zero exactly when no row of the user is unread |
| `Notifications.CountUnreadAppend` | lib/database.ts:462-467 | the unread count over two concatenated lists is the sum of the two counts |
| `Notifications.GetUnreadCount` | lib/database.ts:462-470 | 0 when the query fails, otherwise the exact number of the user's unread rows |
| `Notifications.CreateNotification` | lib/database.ts:427-439 | on success exactly one unread row with the given user, type, title, body and payload is appended; on failure the table is unchanged |
| `Notifications.CreateNotificationCountsOnce` | lib/database.ts:434-436 | a stored notification raises its user's unread count by exactly one and no other user's |
| `Notifications.MarkAsRead` | lib/database.ts:453-460 | only rows with the id get `is_read = true`; nothing else changes, and a failed update changes nothing |
| `Notifications.MarkAsReadLowersCount` | lib/database.ts:453-460 | marking read lowers the owner's unread count by exactly the number of unread rows carrying the id, and an unknown id changes nothing |
| `Notifications.MarkAsReadDecrementsByOne` | lib/database.ts:453-460 | when exactly one row carries the id and it is unread for the user, marking it read lowers that user's unread count by one, matching the client's `decrementUnread` |
| `Missions.CreateMission` | lib/database.ts:336-361 | a stored mission starts with `current_value = 0` and status `active`, with every supplied field copied; null on insert failure |
| `Missions.CountWithId` | lib/database.ts:364-368 | the count of rows with an id is zero exactly when no row has it |
| `Missions.FindMission` | lib/database.ts:364-368 | the lookup finds a row exactly when one with the id exists, and that row carries the id |
| `Missions.NewStatus` | lib/database.ts:364-370 | `completed` exactly when the lookup succeeds on a unique row whose target is non-null, non-zero and reached; otherwise `active` |
| `Missions.UpdateMissionProgress` | lib/database.ts:363-378 | returns the update's success; only rows with the id change; they get the absolute value and the recomputed status, and every other row and field is untouched |
| `Missions.UpdateSetsStatusFromProgress` | lib/database.ts:370-375 | after updating a found mission its status agrees with its own progress, whatever it was before, so a lower value turns `completed` back into `active` |
| `Missions.UniqueIdFound` | lib/database.ts:364-368 | when exactly one row has the id, the lookup returns that row |
| `Missions.FindPrefix` | lib/database.ts:364-368 | appending a row does not change what a lookup that already succeeds finds |
| `Missions.FindLast` | lib/database.ts:364-368 | when only the last row has the id, the lookup returns it |
| `Missions.UpdateKeepsIdCount` | lib/database.ts:372-375 | an update never changes how many rows carry an id |
| `Missions.IdPreservingCount` | lib/database.ts:372-375 | tables with the same ids row by row hold every id equally often |
| `Missions.UpdateKeepsNewStatus` | lib/database.ts:364-375 | after an update the next update's status test sees the same rows and target |
| `Missions.UpdateIdempotent` | lib/database.ts:363-378 | repeating a successful update with the same value leaves the table as the first update left it |
| `Missions.CreatedMissionCompletesAtTarget` | lib/database.ts:348-375 | a newly created mission with a fresh id, once updated, is `completed` exactly when the value reaches its non-zero target |
| `Users.CreateUser` | lib/database.ts:54-78 | a stored user carries the supplied fields plus avatar `default_01`, rank 1, active, and null profile fields; null on insert failure |
| `ClientStores.SetUser` | lib/store.ts:19 | sets the user and leaves store and loading flag unchanged |
| `ClientStores.SetStore` | lib/store.ts:20 | sets the store and leaves user and loading flag unchanged |
| `ClientStores.SetLoading` | lib/store.ts:21 | sets the loading flag and leaves user and store unchanged |
| `ClientStores.Logout` | lib/store.ts:22 | clears user and store and leaves `isLoading` as it was |
| `ClientStores.LogoutIdempotent` | lib/store.ts:15-22 | logging out twice equals logging out once, and the initial state (no user, no store, loading) is unchanged by logout |
| `ClientStores.SetAttendance` | lib/store.ts:37-40 | stores the record and sets `isWorking` exactly when a record is present with no clock-out |
| `ClientStores.ClockIn` | lib/store.ts:41 | stores the record and sets `isWorking` unconditionally; the working/record invariant holds afterwards exactly when the record has no clock-out |
| `ClientStores.ClockOut` | lib/store.ts:42-45 | `isWorking` becomes false; a present record keeps every field except `clock_out`, which is set; an absent record stays absent |
| `ClientStores.RunKeepsWorkingMatchesRecord` | lib/store.ts:34-45 | from a consistent state, any sequence of attendance transitions whose clock-ins carry open records keeps `isWorking` equal to "a record is present with no clock-out" |
| `ClientStores.SetUnreadCount` | lib/store.ts:57 | the counter becomes exactly the given count |
| `ClientStores.DecrementUnread` | lib/store.ts:58 | a positive count drops by exactly one; a zero or negative count becomes 0; the result is never negative |
| `ClientStores.RunKeepsCountNonNegative` | lib/store.ts:55-58 | from a non-negative count, any sequence of non-negative sets and decrements keeps the counter non-negative |
| `ClientStores.DecrementsSaturate` | lib/store.ts:58 | `k >= 1` decrements from `c` leave exactly `max(0, c - k)` |
| `AccessGate.InitialSessionInvariant` | lib/store.ts:15-56 | a fresh page load is loading with no user and no store, not working, with no unread notifications, and every store invariant holds |
| `AccessGate.RedirectDecision` | components/AuthProvider.tsx:97-107 | no navigation while loading; to `/login` exactly when there is no user on a path outside `/login` and `/signup`; to `/` exactly when a user is on one of those paths |
| `AccessGate.RedirectSettles` | components/AuthProvider.tsx:100-106 | a redirect's target never redirects again for the same user state |
| `AccessGate.Gate` | components/AuthProvider.tsx:109-119 | the checking screen exactly while loading; the children exactly when not loading and a user is present or the path is public |
| `AccessGate.GateAgreesWithRedirect` | components/AuthProvider.tsx:100-119 | the "moving to login" screen shows exactly when the redirect to `/login` is issued, and private pages rendered for a user trigger no navigation |
| `AccessGate.OnSignedOut` | components/AuthProvider.tsx:83-88 | user, store and attendance become null, `isWorking` false and the unread count 0; `isLoading` is kept and every store invariant holds |
| `AccessGate.SignedOutLocksPrivatePages` | components/AuthProvider.tsx:83-119 | after sign-out every private page, once loading is over, redirects to `/login` and shows the "moving to login" screen |
| `AccessGate.LoadProfile` | components/AuthProvider.tsx:34-49 | the user is set; store (only with a non-empty primary store id), attendance and unread count follow unless a call throws; a throw stops the sequence: a thrown store lookup leaves everything but the user as it was, a thrown attendance lookup leaves attendance and the unread count, a thrown unread count leaves the count; the attendance invariant is preserved |
| `AccessGate.OnSignedIn` | components/AuthProvider.tsx:70-82 | without a session user or a database row nothing changes; with one the user is set, then the store (only with a non-empty primary store id), the attendance and the unread count are loaded from their answers; with no `catch`, a throw keeps what was set before it and leaves the rest as it was; loading is untouched and the attendance invariant is preserved |
| `AccessGate.CheckAuth` | components/AuthProvider.tsx:26-64 | loading always ends; the user is set exactly when an auth user with a database row is found and every later call returns; the session is signed out exactly when the user lookup for the auth user returns null (no row, several rows, or a query error); a throw or no auth user leaves no user; on success the store (only with a non-empty primary store id), attendance and unread count are loaded; without an auth user and its row, store, attendance and unread count are left as they were, and a thrown attendance lookup leaves attendance and the unread count as they were |
| `AccessGate.CheckAuthSettlesGate` | components/AuthProvider.tsx:26-119 | after the initial check a private page renders its children exactly when the check found the user, and redirects to `/login` otherwise |
| `UserActions.DbUserFields` | lib/user-actions.ts:39-46 | the row's `auth_id` is the new account's id; email, name, role and store are copied; an empty nickname falls back to the name |
| `UserActions.AdminCreateUser` | lib/user-actions.ts:7-57 | an auth error returns its message, and a missing auth user returns `'User creation failed in Auth'`, both with no writes; a DB failure returns `'User metadata could not be saved to database'` and keeps the new account; success returns the new row, linked by `auth_id` to the account just created and carrying `createUser`'s defaults (avatar `default_01`, rank 1, active); a throw returns its message or `'Internal server error'` |
| `UserActions.PasswordNeverStored` | lib/user-actions.ts:19-46 | two submissions differing only in the password give the same result and the same `users` table |
| `UserActions.DualWriteOutcome` | lib/user-actions.ts:19-50 | the `users` table grows exactly on success, and an account without a row remains exactly when the DB insert fails after the account was created |
| `Text.Decimal` | components/common.tsx:240-242 | a rendered count is non-empty, all digits, without a leading zero, and one digit exactly below 10 |
| `Text.IntString` | lib/database.ts:139 | a rendered integer starts with `-` exactly when it is negative |
| `Text.ParseDecimalInvertsDecimal` | components/common.tsx:240-242 | reading a rendered count back gives the count |
| `Text.DecimalInjective` | components/common.tsx:240-242 | distinct counts render differently |
| `Display.AvatarEmoji` | components/common.tsx:210-217 | a listed id gets its emoji and every other id gets `'😊'` |
| `Display.SmileyIffDefaultOrUnknown` | components/common.tsx:210-217 | `'😊'` is shown exactly for `default_01` (every new user's avatar) and for unlisted ids |
| `Display.BadgeLabel` | components/common.tsx:50-54 | the badge shows exactly when the count is positive: `'9+'` above 9, otherwise one digit |
| `Display.BadgeShowsSmallCountsExactly` | components/common.tsx:91-95 | a one-digit badge reads back as the exact count |
| `Display.DecrementNeverShowsBadge` | components/common.tsx:91-95 | a decrement of the store counter never makes a hidden badge appear |
| `Display.Bucket` | components/common.tsx:237-243 | `たった今` exactly below 60 s (negative included); minutes in [1,59], hours in [1,23] and days in [1,6] with each count the floor of the elapsed time in its unit; the date from a week on |
| `Display.BucketMonotone` | components/common.tsx:239-242 | as elapsed time grows, the age shown never goes backwards |
| `Display.TimeAgo` | components/common.tsx:234-244 | `たった今` below a minute; a text ending in `分前` below an hour, in `時間前` below a day and in `日前` below a week; the formatted date from a week on |
| `Display.TimeAgoMinutesReadBack` | components/common.tsx:240 | a minutes text reads back as the floor of the elapsed minutes, in [1,59] |
| `Display.TimeAgoHoursReadBack` | components/common.tsx:241 | an hours text reads back as the floor of the elapsed hours, in [1,23] |
| `Display.TimeAgoDaysReadBack` | components/common.tsx:242 | a days text reads back as the floor of the elapsed days, in [1,6] |
| `Display.ActiveFlags` | components/common.tsx:108-119 | item `i` is active exactly when the path equals its href |
| `Display.AtMostOneActive` | components/common.tsx:108-119 | at most one nav item is active, and one is exactly when the path is one of the four hrefs |

## Left out

- The database client, query builder and join unwrapping (`Array.isArray(x) ? x[0] : x`) are library plumbing. History rows are plain transactions without the embedded sender, recipient and category objects.
- Wall clock and time zone: `new Date()` and the `toISOString().split('T')[0]` cutoff are replaced by an instant parameter and the UTC day. The database compares a timestamp with a date string in its session time zone; the model assumes UTC midnight.
- `formatTime`, `formatDate` and `formatDateTime` depend on the runtime's locale formatting. `Display.TimeAgo` takes the formatted date as a parameter.
- Rendering, the router, the zustand and React hook mechanics, and `useToast`'s timer. Navigation and screens are returned as values.
- The login page, `app/layout.tsx` and `lib/supabase-admin.ts`: a form handler, static metadata and client configuration.
- Ghost-user reconciliation: no code for it exists in the modelled files.
- Check-then-act races on the allowance and on clock-in depend on concurrent requests. The code performs no such checks, so none are modelled.
- The other thin queries of `lib/database.ts` are not separate members: user, store, member, category, attendance, mission, skill and notification lists, and the database `clockIn`/`clockOut`. Where the modelled logic awaits one of them, its answer is a parameter, for example `AccessGate.CheckAnswers.attendance`.
- The definition of the `user_point_summary` view is not part of this model. `PointLedger.GetPointSummary` returns the view's row as given.
- Numbers are unbounded integers. Fractional points, `NaN` and invalid date strings (which make `timeAgo` compute `NaN`) are not modelled.
- Display.AvatarEmoji: does not model inherited object keys such as `constructor`, which the JavaScript lookup would return as a non-string value; these are treated as unknown ids.
- A notification's `data` is arbitrary JSON in the code. It is modelled only as the payload `sendPoints` attaches.
- The identity provider account keeps only its id and email. The `email_confirm` flag and the name/role metadata sent with the create call are not recorded.
- Auth-state events other than `SIGNED_IN` and `SIGNED_OUT` change nothing and are not modelled.
- The asynchronous interleaving of the initial check with auth-state events is not modelled. `AccessGate.CheckAuth`, `AccessGate.OnSignedIn` and `AccessGate.OnSignedOut` are each one atomic state change, so a `SIGNED_OUT` arriving between two awaits of the check is not represented.

=== FILE: access_gate.dfy ===
/** The authentication gate of `components/AuthProvider.tsx`: the initial
    authentication check, the auth-state listener, the redirect decision
    and the render gate, over the three client stores. */
module AccessGate {
  import opened Wrappers
  import opened Domain
  import opened ClientStores

  /** Paths that need no signed-in user. */
  const PublicPaths: seq<string> := ["/login", "/signup"]
  const LoginPath: string := "/login"
  const HomePath: string := "/"

  predicate IsPublicPath(pathname: string) {
    pathname in PublicPaths
  }

  /** The state of all three stores in one browser session. */
  datatype Session = Session(auth: AuthStore, attendance: AttendanceStore, notifications: NotificationStore)

  const InitialSession: Session := Session(InitialAuth, InitialAttendance, InitialNotifications)

  /** Every store invariant of the session. */
  predicate SessionInvariant(s: Session) {
    WorkingMatchesRecord(s.attendance) && s.notifications.unreadCount >= 0
  }

  /** A fresh page load starts loading, signed out, not working and with
      no unread notifications, and every store invariant holds. */
  lemma InitialSessionInvariant()
    ensures SessionInvariant(InitialSession)
    ensures InitialSession.auth.isLoading && InitialSession.auth.user.None? && InitialSession.auth.store.None?
    ensures !InitialSession.attendance.isWorking && InitialSession.notifications.unreadCount == 0
  {
  }

  // ---------------------------------------------------------------------
  // Redirect decision and render gate
  // ---------------------------------------------------------------------

  datatype Navigation = Stay | PushTo(path: string)

  /** The redirect effect: nothing while loading; to the login page without
      a user on a non-public path; home with a user on a public path. */
  function RedirectDecision(isLoading: bool, hasUser: bool, pathname: string): (nav: Navigation)
    ensures isLoading ==> nav == Stay
    ensures nav == PushTo(LoginPath) <==> !isLoading && !hasUser && !IsPublicPath(pathname)
    ensures nav == PushTo(HomePath) <==> !isLoading && hasUser && IsPublicPath(pathname)
    ensures nav == Stay || nav == PushTo(LoginPath) || nav == PushTo(HomePath)
  {
    if isLoading then Stay
    else if !hasUser && !IsPublicPath(pathname) then PushTo(LoginPath)
    else if hasUser && IsPublicPath(pathname) then PushTo(HomePath)
    else Stay
  }

  /** A redirect never leads to another one: on the target path, with the
      same user state, the decision is to stay. */
  lemma RedirectSettles(hasUser: bool, pathname: string)
    ensures var nav := RedirectDecision(false, hasUser, pathname);
      nav.PushTo? ==> RedirectDecision(false, hasUser, nav.path) == Stay
  {
    assert IsPublicPath(LoginPath);
    assert !IsPublicPath(HomePath);
  }

  /** What the provider renders instead of (or as) its children. */
  datatype Screen = CheckingAuth | MovingToLogin | Children

  /** The render gate. */
  function Gate(isLoading: bool, hasUser: bool, pathname: string): (screen: Screen)
    ensures screen == CheckingAuth <==> isLoading
    ensures screen == Children <==> !isLoading && (hasUser || IsPublicPath(pathname))
  {
    if isLoading then CheckingAuth
    else if !hasUser && !IsPublicPath(pathname) then MovingToLogin
    else Children
  }

  /** The loading screen that announces the move to the login page is shown
      exactly when the redirect to the login page is issued. */
  lemma GateAgreesWithRedirect(isLoading: bool, hasUser: bool, pathname: string)
    ensures Gate(isLoading, hasUser, pathname) == MovingToLogin
        <==> RedirectDecision(isLoading, hasUser, pathname) == PushTo(LoginPath)
    ensures Gate(isLoading, hasUser, pathname) == Children && !IsPublicPath(pathname)
        ==> RedirectDecision(isLoading, hasUser, pathname) == Stay
  {
  }

  // ---------------------------------------------------------------------
  // Auth-state listener
  // ---------------------------------------------------------------------

  /** The `SIGNED_OUT` event: user, store and attendance reset to null, the
      unread count to 0; `isLoading` is left as it was. */
  function OnSignedOut(s: Session): (r: Session)
    ensures r.auth.user.None? && r.auth.store.None? && r.auth.isLoading == s.auth.isLoading
    ensures r.attendance.currentAttendance.None? && !r.attendance.isWorking
    ensures r.notifications.unreadCount == 0
    ensures SessionInvariant(r)
  {
    Session(SetStore(SetUser(s.auth, None), None), SetAttendance(None), SetUnreadCount(0))
  }

  /** After signing out, every non-public page redirects to the login page
      and shows the "moving to login" screen once loading is over. */
  lemma SignedOutLocksPrivatePages(s: Session, pathname: string)
    requires !s.auth.isLoading && !IsPublicPath(pathname)
    ensures var r := OnSignedOut(s);
      && RedirectDecision(r.auth.isLoading, r.auth.user.Some?, pathname) == PushTo(LoginPath)
      && Gate(r.auth.isLoading, r.auth.user.Some?, pathname) == MovingToLogin
  {
  }

  /** `if (dbUser.primary_store_id)`: a store id that is present and
      non-empty (the empty string is falsy). */
  predicate HasPrimaryStore(u: User) {
    u.primaryStoreId.Some? && u.primaryStoreId.value != ""
  }

  /** How far loading a signed-in user's profile got. */
  datatype Progress = Progress(session: Session, threw: bool)

  /** The shared sequence of the initial check and `SIGNED_IN`: set the user,
      then the store (only when the user has a primary store), the
      attendance and the unread count, each from an awaited call that may
      throw; a throw stops the sequence where it is. */
  function LoadProfile(
    s: Session, u: User, store: Step<Option<Store>>, attendance: Step<Option<AttendanceRecord>>, unread: Step<int>)
    : (p: Progress)
    ensures p.session.auth.user == Some(u)
    ensures p.session.auth.isLoading == s.auth.isLoading
    ensures !p.threw <==>
      (!HasPrimaryStore(u) || store.Returned?) && attendance.Returned? && unread.Returned?
    ensures !p.threw ==>
      && (HasPrimaryStore(u) ==> p.session.auth.store == store.value)
      && (!HasPrimaryStore(u) ==> p.session.auth.store == s.auth.store)
      && p.session.attendance == SetAttendance(attendance.value)
      && p.session.notifications.unreadCount == unread.value
    ensures HasPrimaryStore(u) && store.Threw? ==> p.session == s.(auth := SetUser(s.auth, Some(u)))
    ensures HasPrimaryStore(u) && store.Returned? ==> p.session.auth.store == store.value
    ensures !HasPrimaryStore(u) ==> p.session.auth.store == s.auth.store
    ensures attendance.Threw? ==> p.session.attendance == s.attendance && p.session.notifications == s.notifications
    ensures unread.Threw? ==> p.session.notifications == s.notifications
    ensures WorkingMatchesRecord(s.attendance) ==> WorkingMatchesRecord(p.session.attendance)
    ensures s.notifications.unreadCount >= 0 && (unread.Returned? ==> unread.value >= 0)
      ==> p.session.notifications.unreadCount >= 0
  {
    var s1 := s.(auth := SetUser(s.auth, Some(u)));
    if HasPrimaryStore(u) && store.Threw? then Progress(s1, true)
    else
      var s2 := if HasPrimaryStore(u) then s1.(auth := SetStore(s1.auth, store.value)) else s1;
      if attendance.Threw? then Progress(s2, true)
      else
        var s3 := s2.(attendance := SetAttendance(attendance.value));
        if unread.Threw? then Progress(s3, true)
        else Progress(s3.(notifications := SetUnreadCount(unread.value)), false)
  }

  /** The `SIGNED_IN` event with a session user: look the user up and, when
      found, load the profile. There is no `catch`: a throw leaves the
      stores as far as they got. Without a session user or a database row
      nothing changes. */
  function OnSignedIn(
    s: Session, sessionUser: Option<Id>, dbUser: Step<Option<User>>,
    store: Step<Option<Store>>, attendance: Step<Option<AttendanceRecord>>, unread: Step<int>)
    : (r: Session)
    ensures sessionUser.None? || !(dbUser.Returned? && dbUser.value.Some?) ==> r == s
    ensures sessionUser.Some? && dbUser.Returned? && dbUser.value.Some? ==> r.auth.user == dbUser.value
    ensures sessionUser.Some? && dbUser.Returned? && dbUser.value.Some? ==>
      var u := dbUser.value.value;
      && (HasPrimaryStore(u) && store.Returned? ==> r.auth.store == store.value)
      && (!HasPrimaryStore(u) ==> r.auth.store == s.auth.store)
      && (HasPrimaryStore(u) && store.Threw? ==> r == s.(auth := SetUser(s.auth, Some(u))))
      && ((!HasPrimaryStore(u) || store.Returned?) && attendance.Returned? ==>
            r.attendance == SetAttendance(attendance.value))
      && ((!HasPrimaryStore(u) || store.Returned?) && attendance.Returned? && unread.Returned? ==>
            r.notifications.unreadCount == unread.value)
      && (attendance.Threw? ==> r.attendance == s.attendance && r.notifications == s.notifications)
      && (unread.Threw? ==> r.notifications == s.notifications)
    ensures r.auth.isLoading == s.auth.isLoading
    ensures WorkingMatchesRecord(s.attendance) ==> WorkingMatchesRecord(r.attendance)
  {
    if sessionUser.None? then s
    else match dbUser
      case Threw(_) => s
      case Returned(None) => s
      case Returned(Some(u)) => LoadProfile(s, u, store, attendance, unread).session
  }

  // ---------------------------------------------------------------------
  // Initial authentication check
  // ---------------------------------------------------------------------

  /** The answers of the calls `checkAuth` awaits, in order. */
  datatype CheckAnswers = CheckAnswers(
    authUser: Step<Option<Id>>,
    dbUser: Step<Option<User>>,
    store: Step<Option<Store>>,
    attendance: Step<Option<AttendanceRecord>>,
    unread: Step<int>)

  /** The stores after the check, and whether it signed the auth session out. */
  datatype CheckResult = CheckResult(session: Session, signedOut: bool)

  /** The check has a signed-in user with a database row and every later
      call returned. */
  predicate CheckSucceeds(a: CheckAnswers) {
    && a.authUser.Returned? && a.authUser.value.Some?
    && a.dbUser.Returned? && a.dbUser.value.Some?
    && (!HasPrimaryStore(a.dbUser.value.value) || a.store.Returned?)
    && a.attendance.Returned? && a.unread.Returned?
  }

  /** `checkAuth`: the `try` block, then the `catch` that clears the user,
      then the `finally` that ends loading. An auth user whose row lookup
      returns null (no row, several rows, or a query error) is signed out. */
  function CheckAuth(s: Session, a: CheckAnswers): (r: CheckResult)
    ensures !r.session.auth.isLoading
    ensures r.session.auth.user.Some? <==> CheckSucceeds(a)
    ensures CheckSucceeds(a) ==> r.session.auth.user == a.dbUser.value
    ensures r.signedOut <==> a.authUser.Returned? && a.authUser.value.Some? && a.dbUser == Returned(None)
    ensures CheckSucceeds(a) ==>
      && r.session.attendance == SetAttendance(a.attendance.value)
      && r.session.notifications.unreadCount == a.unread.value
      && (HasPrimaryStore(a.dbUser.value.value) ==> r.session.auth.store == a.store.value)
      && (!HasPrimaryStore(a.dbUser.value.value) ==> r.session.auth.store == s.auth.store)
    ensures !(a.authUser.Returned? && a.authUser.value.Some? && a.dbUser.Returned? && a.dbUser.value.Some?) ==>
      && r.session.auth.store == s.auth.store
      && r.session.attendance == s.attendance
      && r.session.notifications == s.notifications
    ensures (a.authUser.Returned? && a.authUser.value.Some? && a.dbUser.Returned? && a.dbUser.value.Some?
             && a.attendance.Threw?) ==>
      r.session.attendance == s.attendance && r.session.notifications == s.notifications
    ensures WorkingMatchesRecord(s.attendance) ==> WorkingMatchesRecord(r.session.attendance)
  {
    var tried: CheckResult :=
      match a.authUser
      case Threw(_) => CheckResult(s.(auth := SetUser(s.auth, None)), false)
      case Returned(None) => CheckResult(s.(auth := SetUser(s.auth, None)), false)
      case Returned(Some(_)) =>
        match a.dbUser
        case Threw(_) => CheckResult(s.(auth := SetUser(s.auth, None)), false)
        case Returned(None) => CheckResult(s.(auth := SetUser(s.auth, None)), true)
        case Returned(Some(u)) =>
          var p := LoadProfile(s, u, a.store, a.attendance, a.unread);
          if p.threw then CheckResult(p.session.(auth := SetUser(p.session.auth, None)), false)
          else CheckResult(p.session, false);
    tried.(session := tried.session.(auth := SetLoading(tried.session.auth, false)))
  }

  /** After the initial check the gate never shows the "checking" screen,
      and a page outside the public paths is shown exactly when the check
      found the user. */
  lemma CheckAuthSettlesGate(s: Session, a: CheckAnswers, pathname: string)
    requires !IsPublicPath(pathname)
    ensures var r := CheckAuth(s, a).session;
      && Gate(r.auth.isLoading, r.auth.user.Some?, pathname) != CheckingAuth
      && (Gate(r.auth.isLoading, r.auth.user.Some?, pathname) == Children <==> CheckSucceeds(a))
      && (RedirectDecision(r.auth.isLoading, r.auth.user.Some?, pathname) == PushTo(LoginPath) <==> !CheckSucceeds(a))
  {
  }
}

=== FILE: client_stores.dfy ===
/** The three client-side state stores of `lib/store.ts`, each as a state
    record and its transitions as pure state-to-state functions. */
module ClientStores {
  import opened Wrappers
  import opened Domain

  // ---------------------------------------------------------------------
  // Authentication store
  // ---------------------------------------------------------------------

  datatype AuthStore = AuthStore(user: Option<User>, store: Option<Store>, isLoading: bool)

  /** Before the first authentication check: nobody, no store, loading. */
  const InitialAuth: AuthStore := AuthStore(None, None, true)

  function SetUser(s: AuthStore, user: Option<User>): (r: AuthStore)
    ensures r.user == user && r.store == s.store && r.isLoading == s.isLoading
  {
    s.(user := user)
  }

  function SetStore(s: AuthStore, store: Option<Store>): (r: AuthStore)
    ensures r.store == store && r.user == s.user && r.isLoading == s.isLoading
  {
    s.(store := store)
  }

  function SetLoading(s: AuthStore, isLoading: bool): (r: AuthStore)
    ensures r.isLoading == isLoading && r.user == s.user && r.store == s.store
  {
    s.(isLoading := isLoading)
  }

  /** `logout` clears the user and the store; it leaves `isLoading` as it was. */
  function Logout(s: AuthStore): (r: AuthStore)
    ensures r.user.None? && r.store.None? && r.isLoading == s.isLoading
  {
    s.(user := None, store := None)
  }

  /** Logging out twice is logging out once, and logging out from the
      initial state changes nothing. */
  lemma LogoutIdempotent(s: AuthStore)
    ensures Logout(Logout(s)) == Logout(s)
    ensures Logout(InitialAuth) == InitialAuth
  {
  }

  // ---------------------------------------------------------------------
  // Attendance store
  // ---------------------------------------------------------------------

  datatype AttendanceStore = AttendanceStore(currentAttendance: Option<AttendanceRecord>, isWorking: bool)

  const InitialAttendance: AttendanceStore := AttendanceStore(None, false)

  /** The record is open exactly when the store says the user is working. */
  predicate WorkingMatchesRecord(s: AttendanceStore) {
    s.isWorking <==> (s.currentAttendance.Some? && s.currentAttendance.value.clockOut.None?)
  }

  /** `setAttendance` derives `isWorking` from the record it stores. */
  function SetAttendance(attendance: Option<AttendanceRecord>): (r: AttendanceStore)
    ensures r.currentAttendance == attendance
    ensures WorkingMatchesRecord(r)
  {
    AttendanceStore(attendance, attendance.Some? && attendance.value.clockOut.None?)
  }

  /** `clockIn` stores the record and sets `isWorking` unconditionally; no
      check is made for a record that is already open. */
  function ClockIn(s: AttendanceStore, attendance: AttendanceRecord): (r: AttendanceStore)
    ensures r.currentAttendance == Some(attendance) && r.isWorking
    ensures WorkingMatchesRecord(r) <==> attendance.clockOut.None?
  {
    AttendanceStore(Some(attendance), true)
  }

  /** `clockOut` always clears `isWorking`; a present record gets its
      `clockOut` set to `now` and keeps every other field, an absent record
      stays absent. */
  function ClockOut(s: AttendanceStore, now: Instant): (r: AttendanceStore)
    ensures !r.isWorking
    ensures r.currentAttendance.Some? <==> s.currentAttendance.Some?
    ensures s.currentAttendance.Some? ==>
      r.currentAttendance == Some(s.currentAttendance.value.(clockOut := Some(now)))
    ensures WorkingMatchesRecord(r)
  {
    AttendanceStore(
      match s.currentAttendance
      case Some(a) => Some(a.(clockOut := Some(now)))
      case None => None,
      false)
  }

  /** The attendance store's transitions, as events. */
  datatype AttendanceEvent =
    | SetAttendanceEvent(attendance: Option<AttendanceRecord>)
    | ClockInEvent(record: AttendanceRecord)
    | ClockOutEvent(now: Instant)

  function ApplyAttendance(s: AttendanceStore, e: AttendanceEvent): AttendanceStore {
    match e
    case SetAttendanceEvent(a) => SetAttendance(a)
    case ClockInEvent(a) => ClockIn(s, a)
    case ClockOutEvent(now) => ClockOut(s, now)
  }

  function RunAttendance(s: AttendanceStore, events: seq<AttendanceEvent>): AttendanceStore
    decreases |events|
  {
    if |events| == 0 then s else RunAttendance(ApplyAttendance(s, events[0]), events[1..])
  }

  /** Every record handed to `clockIn` is open. */
  predicate OpenClockIns(events: seq<AttendanceEvent>) {
    forall i :: 0 <= i < |events| && events[i].ClockInEvent? ==> events[i].record.clockOut.None?
  }

  /** `isWorking` agrees with the record after any sequence of transitions
      from a consistent state, as long as `clockIn` is only given open
      records (the application passes the row it has just inserted). */
  lemma {:induction false} RunKeepsWorkingMatchesRecord(s: AttendanceStore, events: seq<AttendanceEvent>)
    requires WorkingMatchesRecord(s) && OpenClockIns(events)
    ensures WorkingMatchesRecord(RunAttendance(s, events))
    decreases |events|
  {
    if |events| > 0 {
      assert events[0].ClockInEvent? ==> events[0].record.clockOut.None?;
      assert OpenClockIns(events[1..]) by {
        forall i | 0 <= i < |events[1..]| && events[1..][i].ClockInEvent?
          ensures events[1..][i].record.clockOut.None?
        {
          assert events[1..][i] == events[i + 1];
        }
      }
      RunKeepsWorkingMatchesRecord(ApplyAttendance(s, events[0]), events[1..]);
    }
  }

  // ---------------------------------------------------------------------
  // Notification store
  // ---------------------------------------------------------------------

  datatype NotificationStore = NotificationStore(unreadCount: int)

  const InitialNotifications: NotificationStore := NotificationStore(0)

  /** `setUnreadCount` stores exactly the given count. */
  function SetUnreadCount(n: int): (r: NotificationStore)
    ensures r.unreadCount == n
  {
    NotificationStore(n)
  }

  /** `decrementUnread`: one less, but never below 0. */
  function DecrementUnread(s: NotificationStore): (r: NotificationStore)
    ensures r.unreadCount >= 0
    ensures s.unreadCount > 0 ==> r.unreadCount == s.unreadCount - 1
    ensures s.unreadCount <= 0 ==> r.unreadCount == 0
  {
    NotificationStore(Max(0, s.unreadCount - 1))
  }

  datatype NotificationEvent = SetUnreadEvent(count: int) | DecrementEvent

  function ApplyNotification(s: NotificationStore, e: NotificationEvent): NotificationStore {
    match e
    case SetUnreadEvent(n) => SetUnreadCount(n)
    case DecrementEvent => DecrementUnread(s)
  }

  function RunNotifications(s: NotificationStore, events: seq<NotificationEvent>): NotificationStore
    decreases |events|
  {
    if |events| == 0 then s else RunNotifications(ApplyNotification(s, events[0]), events[1..])
  }

  /** Every count handed to `setUnreadCount` is a count (non-negative). */
  predicate CountsNonNegative(events: seq<NotificationEvent>) {
    forall i :: 0 <= i < |events| && events[i].SetUnreadEvent? ==> events[i].count >= 0
  }

  /** Starting from 0 (or any non-negative count), and with only counts
      handed to `setUnreadCount`, the counter never goes negative. */
  lemma {:induction false} RunKeepsCountNonNegative(s: NotificationStore, events: seq<NotificationEvent>)
    requires s.unreadCount >= 0 && CountsNonNegative(events)
    ensures RunNotifications(s, events).unreadCount >= 0
    decreases |events|
  {
    if |events| > 0 {
      assert events[0].SetUnreadEvent? ==> events[0].count >= 0;
      assert CountsNonNegative(events[1..]) by {
        forall i | 0 <= i < |events[1..]| && events[1..][i].SetUnreadEvent?
          ensures events[1..][i].count >= 0
        {
          assert events[1..][i] == events[i + 1];
        }
      }
      RunKeepsCountNonNegative(ApplyNotification(s, events[0]), events[1..]);
    }
  }

  /** `k` consecutive calls of `decrementUnread`. */
  function Decrements(k: nat): (events: seq<NotificationEvent>)
    ensures |events| == k
  {
    seq(k, _ => DecrementEvent)
  }

  /** One or more decrements from a count `c` leave `max(0, c - k)`: the
      counter saturates at 0, even from a negative count. */
  lemma {:induction false} DecrementsSaturate(c: int, k: nat)
    requires k > 0
    ensures RunNotifications(NotificationStore(c), Decrements(k)).unreadCount == Max(0, c - k)
    decreases k
  {
    var events := Decrements(k);
    assert events[0] == DecrementEvent;
    assert events[1..] == Decrements(k - 1);
    if k > 1 {
      DecrementsSaturate(Max(0, c - 1), k - 1);
    }
  }
}

=== FILE: display.dfy ===
/** The pure display helpers of `components/common.tsx`: the avatar emoji
    lookup, the unread badge label, `timeAgo` and the bottom navigation's
    active flag. */
module Display {
  import opened Wrappers
  import opened Domain
  import Text
  import Users
  import ClientStores

  // ---------------------------------------------------------------------
  // Avatars
  // ---------------------------------------------------------------------

  const DefaultEmoji: string := "😊"

  /** The twelve known avatar ids and their emoji. */
  const AvatarTable: map<string, string> := map[
    "warrior_01" := "🧙", "warrior_02" := "⚔️", "mage_01" := "🧝", "knight_01" := "🛡️",
    "healer_01" := "💚", "ninja_01" := "🥷", "fairy_01" := "🧚", "manager_01" := "👨‍💼",
    "manager_02" := "👨‍💼", "manager_03" := "👩‍💼", "admin_01" := "👑", "default_01" := "😊"]

  /** `getAvatarEmoji`: the listed emoji for a known id, the smiley for any
      other id. */
  function AvatarEmoji(avatarId: string): (emoji: string)
    ensures avatarId in AvatarTable ==> emoji == AvatarTable[avatarId]
    ensures avatarId !in AvatarTable ==> emoji == DefaultEmoji
  {
    if avatarId in AvatarTable then AvatarTable[avatarId] else DefaultEmoji
  }

  /** The smiley is shown exactly for `default_01` and for unknown ids; in
      particular for every newly created user. */
  lemma SmileyIffDefaultOrUnknown(avatarId: string)
    ensures AvatarEmoji(avatarId) == DefaultEmoji <==> avatarId == Users.DefaultAvatarId || avatarId !in AvatarTable
  {
    if avatarId in AvatarTable && avatarId != "default_01" {
      assert AvatarTable[avatarId] != DefaultEmoji;
    }
  }

  // ---------------------------------------------------------------------
  // Unread badge
  // ---------------------------------------------------------------------

  /** The badge over the bell icon: absent for a count of 0 or less, "9+"
      above 9, otherwise the count itself. */
  function BadgeLabel(unreadCount: int): (badge: Option<string>)
    ensures badge.Some? <==> unreadCount > 0
    ensures unreadCount > 9 ==> badge == Some("9+")
    ensures badge.Some? ==> 1 <= |badge.value| <= 2
    ensures 0 < unreadCount <= 9 ==> |badge.value| == 1 && Text.AllDigits(badge.value)
  {
    if unreadCount <= 0 then None
    else if unreadCount > 9 then Some("9+")
    else Some(Text.Decimal(unreadCount))
  }

  /** A one-digit badge reads back as the exact count; distinct small
      counts give distinct labels. */
  lemma BadgeShowsSmallCountsExactly(unreadCount: int)
    requires 0 < unreadCount <= 9
    ensures Text.ParseDecimal(BadgeLabel(unreadCount).value) == unreadCount
  {
    Text.ParseDecimalInvertsDecimal(unreadCount);
  }

  /** Decrementing the store's counter never makes a hidden badge appear. */
  lemma DecrementNeverShowsBadge(s: ClientStores.NotificationStore)
    requires BadgeLabel(s.unreadCount).None?
    ensures BadgeLabel(ClientStores.DecrementUnread(s).unreadCount).None?
  {
  }

  // ---------------------------------------------------------------------
  // Relative time
  // ---------------------------------------------------------------------

  const SecondsPerMinute: int := 60
  const SecondsPerHour: int := 3600
  const SecondsPerDay: int := 86400
  const SecondsPerWeek: int := 604800

  /** The elapsed whole seconds, `Math.floor((now - date) / 1000)`; `/` on
      `int` rounds down for a positive divisor, as `Math.floor` does. */
  function ElapsedSeconds(nowMs: Instant, dateMs: Instant): int {
    (nowMs - dateMs) / 1000
  }

  /** The bucket `timeAgo` chooses. */
  datatype Ago = JustNow | MinutesAgo(minutes: int) | HoursAgo(hours: int) | DaysAgo(days: int) | OnDate

  /** `timeAgo`'s bucketing on elapsed seconds `s`: each count is the
      floor of `s` over its unit, and lies strictly below the next unit. */
  function Bucket(s: int): (a: Ago)
    ensures a == JustNow <==> s < SecondsPerMinute
    ensures a.MinutesAgo? <==> SecondsPerMinute <= s < SecondsPerHour
    ensures a.HoursAgo? <==> SecondsPerHour <= s < SecondsPerDay
    ensures a.DaysAgo? <==> SecondsPerDay <= s < SecondsPerWeek
    ensures a == OnDate <==> SecondsPerWeek <= s
    ensures a.MinutesAgo? ==>
      && 1 <= a.minutes <= 59
      && a.minutes * SecondsPerMinute <= s < (a.minutes + 1) * SecondsPerMinute
    ensures a.HoursAgo? ==>
      && 1 <= a.hours <= 23
      && a.hours * SecondsPerHour <= s < (a.hours + 1) * SecondsPerHour
    ensures a.DaysAgo? ==>
      && 1 <= a.days <= 6
      && a.days * SecondsPerDay <= s < (a.days + 1) * SecondsPerDay
  {
    if s < SecondsPerMinute then JustNow
    else if s < SecondsPerHour then MinutesAgo(s / SecondsPerMinute)
    else if s < SecondsPerDay then HoursAgo(s / SecondsPerHour)
    else if s < SecondsPerWeek then DaysAgo(s / SecondsPerDay)
    else OnDate
  }

  /** The least elapsed time a bucket stands for. */
  function AgoLowerBound(a: Ago): int {
    match a
    case JustNow => 0
    case MinutesAgo(m) => m * SecondsPerMinute
    case HoursAgo(h) => h * SecondsPerHour
    case DaysAgo(d) => d * SecondsPerDay
    case OnDate => SecondsPerWeek
  }

  /** As time passes the displayed age never goes backwards. */
  lemma BucketMonotone(s1: int, s2: int)
    requires s1 <= s2
    ensures AgoLowerBound(Bucket(s1)) <= AgoLowerBound(Bucket(s2))
  {
    var a1, a2 := Bucket(s1), Bucket(s2);
    if a1.MinutesAgo? && a2.MinutesAgo? {
      assert a1.minutes * SecondsPerMinute <= s1 < (a2.minutes + 1) * SecondsPerMinute;
    } else if a1.HoursAgo? && a2.HoursAgo? {
      assert a1.hours * SecondsPerHour <= s1 < (a2.hours + 1) * SecondsPerHour;
    } else if a1.DaysAgo? && a2.DaysAgo? {
      assert a1.days * SecondsPerDay <= s1 < (a2.days + 1) * SecondsPerDay;
    }
  }

  /** `timeAgo`: the bucket rendered in Japanese; a week or more shows the
      locale-formatted date, which is supplied by the caller. */
  function TimeAgo(nowMs: Instant, dateMs: Instant, formattedDate: string): (text: string)
    ensures ElapsedSeconds(nowMs, dateMs) < SecondsPerMinute ==> text == "たった今"
    ensures SecondsPerMinute <= ElapsedSeconds(nowMs, dateMs) < SecondsPerHour ==>
      |text| >= 3 && text[|text| - 2..] == "分前"
    ensures SecondsPerHour <= ElapsedSeconds(nowMs, dateMs) < SecondsPerDay ==>
      |text| >= 4 && text[|text| - 3..] == "時間前"
    ensures SecondsPerDay <= ElapsedSeconds(nowMs, dateMs) < SecondsPerWeek ==>
      |text| >= 3 && text[|text| - 2..] == "日前"
    ensures ElapsedSeconds(nowMs, dateMs) >= SecondsPerWeek ==> text == formattedDate
  {
    match Bucket(ElapsedSeconds(nowMs, dateMs))
    case JustNow => "たった今"
    case MinutesAgo(m) => Text.Decimal(m) + "分前"
    case HoursAgo(h) => Text.Decimal(h) + "時間前"
    case DaysAgo(d) => Text.Decimal(d) + "日前"
    case OnDate => formattedDate
  }

  /** A "minutes ago" text reads back as the floor of the elapsed minutes. */
  lemma TimeAgoMinutesReadBack(nowMs: Instant, dateMs: Instant, formattedDate: string)
    requires SecondsPerMinute <= ElapsedSeconds(nowMs, dateMs) < SecondsPerHour
    ensures var text := TimeAgo(nowMs, dateMs, formattedDate);
      var m := ElapsedSeconds(nowMs, dateMs) / SecondsPerMinute;
      && text == Text.Decimal(m) + "分前"
      && Text.ParseDecimal(text[..|text| - 2]) == m
      && 1 <= m <= 59
  {
    var m := ElapsedSeconds(nowMs, dateMs) / SecondsPerMinute;
    var text := TimeAgo(nowMs, dateMs, formattedDate);
    assert text[..|text| - 2] == Text.Decimal(m);
    Text.ParseDecimalInvertsDecimal(m);
  }

  /** An "hours ago" text reads back as the floor of the elapsed hours. */
  lemma TimeAgoHoursReadBack(nowMs: Instant, dateMs: Instant, formattedDate: string)
    requires SecondsPerHour <= ElapsedSeconds(nowMs, dateMs) < SecondsPerDay
    ensures var text := TimeAgo(nowMs, dateMs, formattedDate);
      var h := ElapsedSeconds(nowMs, dateMs) / SecondsPerHour;
      && text == Text.Decimal(h) + "時間前"
      && Text.ParseDecimal(text[..|text| - 3]) == h
      && 1 <= h <= 23
  {
    var h := ElapsedSeconds(nowMs, dateMs) / SecondsPerHour;
    var text := TimeAgo(nowMs, dateMs, formattedDate);
    assert text[..|text| - 3] == Text.Decimal(h);
    Text.ParseDecimalInvertsDecimal(h);
  }

  /** A "days ago" text reads back as the floor of the elapsed days. */
  lemma TimeAgoDaysReadBack(nowMs: Instant, dateMs: Instant, formattedDate: string)
    requires SecondsPerDay <= ElapsedSeconds(nowMs, dateMs) < SecondsPerWeek
    ensures var text := TimeAgo(nowMs, dateMs, formattedDate);
      var d := ElapsedSeconds(nowMs, dateMs) / SecondsPerDay;
      && text == Text.Decimal(d) + "日前"
      && Text.ParseDecimal(text[..|text| - 2]) == d
      && 1 <= d <= 6
  {
    var d := ElapsedSeconds(nowMs, dateMs) / SecondsPerDay;
    var text := TimeAgo(nowMs, dateMs, formattedDate);
    assert text[..|text| - 2] == Text.Decimal(d);
    Text.ParseDecimalInvertsDecimal(d);
  }

  // ---------------------------------------------------------------------
  // Bottom navigation
  // ---------------------------------------------------------------------

  /** The hrefs of the four navigation items, in display order. */
  const NavHrefs: seq<string> := ["/", "/ranking", "/skills", "/profile"]

  /** Whether each navigation item is highlighted on `pathname`. */
  function ActiveFlags(pathname: string): (flags: seq<bool>)
    ensures |flags| == |NavHrefs|
    ensures forall i :: 0 <= i < |NavHrefs| ==> (flags[i] <==> pathname == NavHrefs[i])
  {
    seq(|NavHrefs|, i requires 0 <= i < |NavHrefs| => pathname == NavHrefs[i])
  }

  /** At most one item is active, and one is exactly when the path is one
      of the four hrefs. */
  lemma AtMostOneActive(pathname: string)
    ensures forall i, j :: 0 <= i < j < |NavHrefs| ==> !(ActiveFlags(pathname)[i] && ActiveFlags(pathname)[j])
    ensures (exists i :: 0 <= i < |NavHrefs| && ActiveFlags(pathname)[i]) <==> pathname in NavHrefs
  {
    var flags := ActiveFlags(pathname);
    if pathname in NavHrefs {
      var i :| 0 <= i < |NavHrefs| && NavHrefs[i] == pathname;
      assert flags[i];
    }
  }
}

=== FILE: domain.dfy ===
/** The records the application keeps in its hosted database (the shapes
    of `types/index.ts`), and the abstract clock the model uses.

    Column names are written in camelCase (`from_user_id` becomes
    `fromUserId`); the column `type` of a notification is `kind`, because
    `type` is a Dafny keyword. */
module Domain {
  import opened Wrappers

  /** Database and identity-provider keys (UUID text in the application). */
  type Id = string

  /** A point in time, as milliseconds since the Unix epoch (UTC). */
  type Instant = int

  const MsPerDay: int := 86_400_000

  /** The UTC calendar day an instant falls on, counted from the epoch;
      `/` on `int` rounds towards negative infinity here, like the calendar. */
  function DayOf(t: Instant): int {
    t / MsPerDay
  }

  /** Midnight (UTC) at the start of the day `now` falls on: the cutoff the
      "today" queries compare `created_at` / `clock_in` against. */
  function StartOfDay(now: Instant): (start: Instant)
    ensures start <= now < start + MsPerDay
    ensures DayOf(start) == DayOf(now)
    ensures start % MsPerDay == 0
  {
    DayOf(now) * MsPerDay
  }

  /** Comparing an instant against the start of today is the same as
      comparing calendar days. */
  lemma OnOrAfterStartOfDayIff(t: Instant, now: Instant)
    ensures t >= StartOfDay(now) <==> DayOf(t) >= DayOf(now)
  {
    var d := DayOf(now);
    if t >= StartOfDay(now) {
      assert t - d * MsPerDay >= 0;
      assert (t - d * MsPerDay) / MsPerDay >= 0;
      assert (t - d * MsPerDay) / MsPerDay == t / MsPerDay - d;
    } else {
      assert t - d * MsPerDay < 0;
      assert (t - d * MsPerDay) / MsPerDay < 0;
      assert (t - d * MsPerDay) / MsPerDay == t / MsPerDay - d;
    }
  }

  function Max(a: int, b: int): int {
    if a >= b then a else b
  }

  function Min(a: int, b: int): int {
    if a <= b then a else b
  }

  datatype Role = SystemAdmin | HeadquartersAdmin | AreaManager | Manager | Staff

  /** A row of `users`. */
  datatype User = User(
    id: Id,
    authId: Option<Id>,
    email: string,
    name: string,
    nickname: string,
    role: Role,
    primaryStoreId: Option<Id>,
    avatarId: string,
    rank: int,
    profileText: Option<string>,
    strengths: Option<string>,
    weaknesses: Option<string>,
    hobbies: Option<string>,
    personalityType: Option<string>,
    isActive: bool,
    createdAt: Instant,
    updatedAt: Instant)

  /** A row of `stores`. */
  datatype Store = Store(
    id: Id,
    organizationId: Id,
    name: string,
    code: string,
    address: Option<string>,
    isActive: bool)

  datatype PointType = Thanks | GoodJob

  /** A row of `point_transactions`: one peer-recognition transfer. */
  datatype PointTransaction = PointTransaction(
    id: Id,
    fromUserId: Id,
    toUserId: Id,
    pointType: PointType,
    points: int,
    goodjobCategoryId: Option<Id>,
    goodjobFreeText: Option<string>,
    message: Option<string>,
    createdAt: Instant)

  /** A row of `attendance_records`: a shift, open while `clockOut` is null. */
  datatype AttendanceRecord = AttendanceRecord(
    id: Id,
    userId: Id,
    storeId: Id,
    clockIn: Instant,
    clockOut: Option<Instant>,
    createdAt: Instant)

  datatype MissionStatus = Active | Completed | Cancelled

  /** A row of `missions`: a daily store goal with a progress counter.
      `targetDate` is the calendar day (see `DayOf`) the mission is for. */
  datatype Mission = Mission(
    id: Id,
    storeId: Id,
    name: string,
    description: Option<string>,
    icon: string,
    targetValue: Option<int>,
    currentValue: int,
    targetDate: int,
    points: int,
    status: MissionStatus,
    createdBy: Id,
    createdAt: Instant)

  /** The JSON payload a point notification carries. */
  datatype PointPayload = PointPayload(fromUserId: Id, points: int, pointType: PointType)

  /** A row of `notifications`. */
  datatype Notification = Notification(
    id: Id,
    userId: Id,
    kind: string,
    title: string,
    body: string,
    data: Option<PointPayload>,
    isRead: bool,
    createdAt: Instant)

  /** A row of the `user_point_summary` view. */
  datatype PointSummary = PointSummary(
    thanksSent: int,
    thanksReceived: int,
    goodjobSent: int,
    goodjobReceived: int)
}

=== FILE: ledger.dfy ===
/** The point ledger of `lib/database.ts`: the daily remaining allowance,
    the point history query, `sendPoints` and the summary fallback.

    `point_transactions` is modelled as a sequence of rows in insertion
    order. Whether the adapter answered a query is a parameter (`queryOk`);
    so are the ids and the instant the database assigns to a new row. */
module PointLedger {
  import opened Wrappers
  import opened Domain
  import Text
  import Notifications

  /** The default of `getTodayRemainingPoints`'s `dailyLimit`. */
  const DefaultDailyLimit: int := 50

  /** The `.limit(...)` of the history query. */
  const HistoryLimit: nat := 50

  // ---------------------------------------------------------------------
  // Daily remaining allowance
  // ---------------------------------------------------------------------

  /** The filter of the allowance query: sent by `userId` at or after the
      start of the current day. */
  predicate SentToday(t: PointTransaction, userId: Id, dayStart: Instant) {
    t.fromUserId == userId && t.createdAt >= dayStart
  }

  /** The rows the allowance query returns, in ledger order. */
  function SentTodayRows(rows: seq<PointTransaction>, userId: Id, dayStart: Instant): (r: seq<PointTransaction>)
    ensures |r| <= |rows|
    ensures forall t :: t in r ==> t in rows && SentToday(t, userId, dayStart)
    ensures forall t :: t in rows && SentToday(t, userId, dayStart) ==> t in r
    decreases |rows|
  {
    if |rows| == 0 then []
    else
      var init := SentTodayRows(rows[..|rows| - 1], userId, dayStart);
      var last := rows[|rows| - 1];
      assert rows == rows[..|rows| - 1] + [last];
      if SentToday(last, userId, dayStart) then init + [last] else init
  }

  /** The allowance query returns each selected row exactly as often as it
      occurs in the ledger, and no other row. */
  lemma {:induction false} SentTodayRowsCounts(rows: seq<PointTransaction>, userId: Id, dayStart: Instant)
    ensures forall t :: multiset(SentTodayRows(rows, userId, dayStart))[t]
                     == if SentToday(t, userId, dayStart) then multiset(rows)[t] else 0
    decreases |rows|
  {
    if |rows| > 0 {
      var last := rows[|rows| - 1];
      assert rows == rows[..|rows| - 1] + [last];
      assert multiset(rows) == multiset(rows[..|rows| - 1]) + multiset{last};
      SentTodayRowsCounts(rows[..|rows| - 1], userId, dayStart);
    }
  }

  /** The sum of the `points` column. */
  function SumPoints(rows: seq<PointTransaction>): int
    decreases |rows|
  {
    if |rows| == 0 then 0 else SumPoints(rows[..|rows| - 1]) + rows[|rows| - 1].points
  }

  predicate NonNegativePoints(rows: seq<PointTransaction>) {
    forall i :: 0 <= i < |rows| ==> rows[i].points >= 0
  }

  /** Points `userId` has sent since the start of the day `now` falls on. */
  function SentTodayTotal(rows: seq<PointTransaction>, userId: Id, now: Instant): int {
    SumPoints(SentTodayRows(rows, userId, StartOfDay(now)))
  }

  /** `getTodayRemainingPoints`: the daily limit minus the points sent today,
      floored at 0; the whole limit when the query fails. */
  function TodayRemaining(rows: seq<PointTransaction>, queryOk: bool, userId: Id, now: Instant, dailyLimit: int): (r: int)
    ensures !queryOk ==> r == dailyLimit
    ensures queryOk ==> r >= 0
    ensures queryOk && r > 0 ==> r == dailyLimit - SentTodayTotal(rows, userId, now)
    ensures queryOk && r == 0 ==> SentTodayTotal(rows, userId, now) >= dailyLimit
  {
    if !queryOk then dailyLimit
    else Max(0, dailyLimit - SentTodayTotal(rows, userId, now))
  }

  /** The computation as the code performs it: the database filters, then
      the client folds the returned `points` with `reduce`. */
  method TodayRemainingByReduce(rows: seq<PointTransaction>, queryOk: bool, userId: Id, now: Instant, dailyLimit: int)
    returns (r: int)
    ensures r == TodayRemaining(rows, queryOk, userId, now, dailyLimit)
  {
    if !queryOk {
      return dailyLimit;
    }
    var data := SentTodayRows(rows, userId, StartOfDay(now));
    var sentToday := 0;
    var i := 0;
    while i < |data|
      invariant 0 <= i <= |data|
      invariant sentToday == SumPoints(data[..i])
    {
      assert data[..i + 1][..i] == data[..i];
      sentToday := sentToday + data[i].points;
      i := i + 1;
    }
    assert data[..|data|] == data;
    r := if dailyLimit - sentToday >= 0 then dailyLimit - sentToday else 0;
  }

  lemma {:induction false} SumPointsAppend(a: seq<PointTransaction>, b: seq<PointTransaction>)
    ensures SumPoints(a + b) == SumPoints(a) + SumPoints(b)
    decreases |b|
  {
    if |b| == 0 {
      assert a + b == a;
    } else {
      var b' := b[..|b| - 1];
      assert (a + b)[..|a + b| - 1] == a + b';
      SumPointsAppend(a, b');
    }
  }

  lemma {:induction false} SumPointsNonNegative(rows: seq<PointTransaction>)
    requires NonNegativePoints(rows)
    ensures SumPoints(rows) >= 0
    decreases |rows|
  {
    if |rows| > 0 {
      SumPointsNonNegative(rows[..|rows| - 1]);
    }
  }

  lemma {:induction false} SentTodayRowsAppend(a: seq<PointTransaction>, b: seq<PointTransaction>, userId: Id, dayStart: Instant)
    ensures SentTodayRows(a + b, userId, dayStart) == SentTodayRows(a, userId, dayStart) + SentTodayRows(b, userId, dayStart)
    decreases |b|
  {
    if |b| == 0 {
      assert a + b == a;
    } else {
      var b' := b[..|b| - 1];
      assert (a + b)[..|a + b| - 1] == a + b';
      SentTodayRowsAppend(a, b', userId, dayStart);
    }
  }

  /** Rows that no allowance query of `userId` on this day selects. */
  predicate IrrelevantToday(rows: seq<PointTransaction>, userId: Id, now: Instant) {
    forall i :: 0 <= i < |rows| ==> rows[i].fromUserId != userId || rows[i].createdAt < StartOfDay(now)
  }

  lemma {:induction false} IrrelevantRowsSelectNothing(rows: seq<PointTransaction>, userId: Id, now: Instant)
    requires IrrelevantToday(rows, userId, now)
    ensures SentTodayRows(rows, userId, StartOfDay(now)) == []
    decreases |rows|
  {
    if |rows| > 0 {
      IrrelevantRowsSelectNothing(rows[..|rows| - 1], userId, now);
    }
  }

  /** Transactions by other senders, or dated before today, do not affect the
      remaining allowance, wherever they sit in the ledger. */
  lemma OtherSendersAndPastDaysIgnored(
    before: seq<PointTransaction>, extra: seq<PointTransaction>, after: seq<PointTransaction>,
    queryOk: bool, userId: Id, now: Instant, dailyLimit: int)
    requires IrrelevantToday(extra, userId, now)
    ensures TodayRemaining(before + extra + after, queryOk, userId, now, dailyLimit)
         == TodayRemaining(before + after, queryOk, userId, now, dailyLimit)
  {
    var d := StartOfDay(now);
    SentTodayRowsAppend(before + extra, after, userId, d);
    SentTodayRowsAppend(before, extra, userId, d);
    SentTodayRowsAppend(before, after, userId, d);
    IrrelevantRowsSelectNothing(extra, userId, now);
    assert SentTodayRows(before + extra, userId, d) == SentTodayRows(before, userId, d);
  }

  /** Appending a send of `userId` dated today lowers the allowance by its
      points (never below 0); with non-negative points it never increases it. */
  lemma TodaySendLowersRemaining(rows: seq<PointTransaction>, t: PointTransaction, userId: Id, now: Instant, dailyLimit: int)
    requires t.fromUserId == userId && DayOf(t.createdAt) >= DayOf(now)
    requires t.points >= 0
    ensures TodayRemaining(rows + [t], true, userId, now, dailyLimit)
         == Max(0, TodayRemaining(rows, true, userId, now, dailyLimit) - t.points)
    ensures TodayRemaining(rows + [t], true, userId, now, dailyLimit)
         <= TodayRemaining(rows, true, userId, now, dailyLimit)
  {
    TodaySendAddsToTotal(rows, t, userId, now);
  }

  /** A send of `userId` dated today adds its points to today's total. */
  lemma TodaySendAddsToTotal(rows: seq<PointTransaction>, t: PointTransaction, userId: Id, now: Instant)
    requires t.fromUserId == userId && DayOf(t.createdAt) >= DayOf(now)
    ensures SentTodayTotal(rows + [t], userId, now) == SentTodayTotal(rows, userId, now) + t.points
  {
    var d := StartOfDay(now);
    var sent := SentTodayRows(rows, userId, d);
    OnOrAfterStartOfDayIff(t.createdAt, now);
    assert SentTodayRows([t], userId, d) == [t] by {
      assert [t][..0] == [];
    }
    SentTodayRowsAppend(rows, [t], userId, d);
    assert SentTodayRows(rows + [t], userId, d) == sent + [t];
    SumPointsAppend(sent, [t]);
    assert SumPoints([t]) == t.points by {
      assert [t][..0] == [];
    }
  }

  /** When every transaction in the ledger is dated before the current day,
      the whole limit (floored at 0) is available again. */
  lemma {:induction false} NewDayRestoresLimit(rows: seq<PointTransaction>, userId: Id, now: Instant, dailyLimit: int)
    requires forall i :: 0 <= i < |rows| ==> DayOf(rows[i].createdAt) < DayOf(now)
    ensures TodayRemaining(rows, true, userId, now, dailyLimit) == Max(0, dailyLimit)
  {
    forall i | 0 <= i < |rows|
      ensures rows[i].createdAt < StartOfDay(now)
    {
      OnOrAfterStartOfDayIff(rows[i].createdAt, now);
    }
    IrrelevantRowsSelectNothing(rows, userId, now);
  }

  /** With non-negative points the allowance never exceeds the limit; with
      the default limit it always lies in [0, 50], on the error path too. */
  lemma RemainingWithinLimit(rows: seq<PointTransaction>, queryOk: bool, userId: Id, now: Instant, dailyLimit: int)
    requires NonNegativePoints(rows)
    ensures queryOk ==> TodayRemaining(rows, queryOk, userId, now, dailyLimit) <= Max(0, dailyLimit)
    ensures 0 <= TodayRemaining(rows, queryOk, userId, now, DefaultDailyLimit) <= DefaultDailyLimit
  {
    var data := SentTodayRows(rows, userId, StartOfDay(now));
    assert NonNegativePoints(data) by {
      forall i | 0 <= i < |data|
        ensures data[i].points >= 0
      {
        assert data[i] in data;
      }
    }
    SumPointsNonNegative(data);
  }

  // ---------------------------------------------------------------------
  // Point history
  // ---------------------------------------------------------------------

  /** The optional `type` argument of `getPointHistory`; `Either` stands for
      the argument being omitted. */
  datatype HistoryKind = Sent | Received | Either

  predicate InHistory(t: PointTransaction, userId: Id, kind: HistoryKind) {
    match kind
    case Sent => t.fromUserId == userId
    case Received => t.toUserId == userId
    case Either => t.fromUserId == userId || t.toUserId == userId
  }

  /** The rows the history filter selects, in ledger order. */
  function HistoryRows(rows: seq<PointTransaction>, userId: Id, kind: HistoryKind): (r: seq<PointTransaction>)
    ensures |r| <= |rows|
    ensures forall t :: t in r ==> t in rows && InHistory(t, userId, kind)
    ensures forall t :: t in rows && InHistory(t, userId, kind) ==> t in r
    ensures forall t :: multiset(r)[t] == if InHistory(t, userId, kind) then multiset(rows)[t] else 0
    decreases |rows|
  {
    if |rows| == 0 then []
    else
      var init := HistoryRows(rows[..|rows| - 1], userId, kind);
      var last := rows[|rows| - 1];
      assert rows == rows[..|rows| - 1] + [last];
      assert multiset(rows) == multiset(rows[..|rows| - 1]) + multiset{last};
      if InHistory(last, userId, kind) then init + [last] else init
  }

  /** Ordered by `created_at`, newest first. */
  predicate NewestFirst(s: seq<PointTransaction>) {
    forall i, j :: 0 <= i < j < |s| ==> s[i].createdAt >= s[j].createdAt
  }

  /** Inserts `t` into a newest-first sequence. */
  function InsertByDate(t: PointTransaction, s: seq<PointTransaction>): (r: seq<PointTransaction>)
    requires NewestFirst(s)
    ensures NewestFirst(r)
    ensures multiset(r) == multiset(s) + multiset{t}
    ensures |r| == |s| + 1
    ensures r[0] == t || (|s| > 0 && r[0] == s[0])
    decreases |s|
  {
    if |s| == 0 then [t]
    else if t.createdAt >= s[0].createdAt then [t] + s
    else
      assert s == [s[0]] + s[1..];
      var rest := InsertByDate(t, s[1..]);
      assert rest[0].createdAt <= s[0].createdAt;
      [s[0]] + rest
  }

  /** The `order('created_at', { ascending: false })` of the query. */
  function OrderNewestFirst(s: seq<PointTransaction>): (r: seq<PointTransaction>)
    ensures NewestFirst(r)
    ensures multiset(r) == multiset(s)
    decreases |s|
  {
    if |s| == 0 then []
    else
      assert s == [s[0]] + s[1..];
      InsertByDate(s[0], OrderNewestFirst(s[1..]))
  }

  /** Keeping a prefix of a newest-first ordering of `matching` keeps
      newest rows: everything dropped is no newer than anything kept. */
  lemma PrefixKeepsNewest(matching: seq<PointTransaction>, s: seq<PointTransaction>, k: nat)
    requires NewestFirst(s) && multiset(s) == multiset(matching) && k <= |s|
    ensures multiset(s[..k]) <= multiset(matching)
    ensures forall t :: t in matching && t !in s[..k] ==>
      forall i :: 0 <= i < k ==> s[i].createdAt >= t.createdAt
  {
    assert s == s[..k] + s[k..];
    assert multiset(s) == multiset(s[..k]) + multiset(s[k..]);
    forall t | t in matching && t !in s[..k]
      ensures forall i :: 0 <= i < k ==> s[i].createdAt >= t.createdAt
    {
      assert t in multiset(matching);
      var j :| 0 <= j < |s| && s[j] == t;
    }
  }

  /** The newest `HistoryLimit` rows of a selection. */
  function NewestRows(matching: seq<PointTransaction>): (r: seq<PointTransaction>)
    ensures |r| == Min(HistoryLimit, |matching|)
    ensures NewestFirst(r)
    ensures multiset(r) <= multiset(matching)
    ensures forall t :: t in matching && t !in r ==>
      forall i :: 0 <= i < |r| ==> r[i].createdAt >= t.createdAt
  {
    var ordered := OrderNewestFirst(matching);
    assert |ordered| == |multiset(ordered)| == |matching|;
    var k := Min(HistoryLimit, |ordered|);
    PrefixKeepsNewest(matching, ordered, k);
    ordered[..k]
  }

  /** `getPointHistory`: the matching rows, newest first, at most 50 of
      them; the empty list when the query fails. The rows kept are the
      newest matching ones. */
  function PointHistory(rows: seq<PointTransaction>, queryOk: bool, userId: Id, kind: HistoryKind): (r: seq<PointTransaction>)
    ensures !queryOk ==> r == []
    ensures |r| <= HistoryLimit
    ensures NewestFirst(r)
    ensures forall t :: t in r ==> t in rows && InHistory(t, userId, kind)
    ensures queryOk ==> multiset(r) <= multiset(HistoryRows(rows, userId, kind))
    ensures queryOk ==> |r| == Min(HistoryLimit, |HistoryRows(rows, userId, kind)|)
    ensures queryOk ==> forall t :: t in rows && InHistory(t, userId, kind) && t !in r ==>
      forall i :: 0 <= i < |r| ==> r[i].createdAt >= t.createdAt
  {
    if !queryOk then []
    else
      var matching := HistoryRows(rows, userId, kind);
      var r := NewestRows(matching);
      assert forall t :: t in r ==> t in multiset(matching);
      r
  }

  // ---------------------------------------------------------------------
  // Sending points
  // ---------------------------------------------------------------------

  /** The tables `sendPoints` writes to. */
  datatype PointsDb = PointsDb(transactions: seq<PointTransaction>, notifications: seq<Notification>)

  /** The arguments of `sendPoints`. */
  datatype SendRequest = SendRequest(
    fromUserId: Id,
    toUserId: Id,
    pointType: PointType,
    points: int,
    message: Option<string>,
    goodjobCategoryId: Option<Id>,
    goodjobFreeText: Option<string>)

  /** What the database's answers were: the ids and instant it assigns and
      whether each insert succeeded. */
  datatype SendAdapter = SendAdapter(txId: Id, notificationId: Id, now: Instant, txInsertOk: bool, notificationInsertOk: bool)

  datatype SendOutcome = SendOutcome(ok: bool, db: PointsDb)

  const PointReceivedKind: string := "point_received"

  /** The notification title, chosen by the point type. */
  function ReceivedTitle(pointType: PointType): string {
    match pointType
    case Thanks => "💖 サンクスポイントを受け取りました"
    case GoodJob => "⭐ Good Jobを受け取りました"
  }

  function ReceivedBody(points: int): string {
    Text.IntString(points) + "ポイント受け取りました"
  }

  /** `sendPoints`: insert the transaction; if that fails return false and
      write nothing else. Otherwise create a notification for the recipient
      (best effort: its failure is ignored) and return true. Neither the
      daily allowance nor `fromUserId != toUserId` is checked. */
  function SendPoints(db: PointsDb, req: SendRequest, adapter: SendAdapter): (out: SendOutcome)
    ensures out.ok == adapter.txInsertOk
    ensures !adapter.txInsertOk ==> out.db == db
    ensures adapter.txInsertOk ==>
      && |out.db.transactions| == |db.transactions| + 1
      && out.db.transactions[..|db.transactions|] == db.transactions
      && var t := out.db.transactions[|db.transactions|];
         && t.fromUserId == req.fromUserId && t.toUserId == req.toUserId
         && t.pointType == req.pointType && t.points == req.points
         && t.message == req.message && t.goodjobCategoryId == req.goodjobCategoryId
         && t.goodjobFreeText == req.goodjobFreeText && t.createdAt == adapter.now
    ensures adapter.txInsertOk && !adapter.notificationInsertOk ==> out.db.notifications == db.notifications
    ensures adapter.txInsertOk && adapter.notificationInsertOk ==>
      && |out.db.notifications| == |db.notifications| + 1
      && out.db.notifications[..|db.notifications|] == db.notifications
      && var n := out.db.notifications[|db.notifications|];
         && n.userId == req.toUserId && n.kind == PointReceivedKind && !n.isRead
         && n.title == ReceivedTitle(req.pointType) && n.body == ReceivedBody(req.points)
         && n.data == Some(PointPayload(req.fromUserId, req.points, req.pointType))
  {
    if !adapter.txInsertOk then SendOutcome(false, db)
    else
      var t := PointTransaction(adapter.txId, req.fromUserId, req.toUserId, req.pointType, req.points,
                                req.goodjobCategoryId, req.goodjobFreeText, req.message, adapter.now);
      var w := Notifications.CreateNotification(
        db.notifications, req.toUserId, PointReceivedKind, ReceivedTitle(req.pointType), ReceivedBody(req.points),
        Some(PointPayload(req.fromUserId, req.points, req.pointType)),
        adapter.notificationId, adapter.now, adapter.notificationInsertOk);
      SendOutcome(true, PointsDb(db.transactions + [t], w.table))
  }

  /** After a successful send the sender's remaining allowance for that day
      is lowered by exactly the points sent (floored at 0). */
  lemma SendLowersSenderAllowance(db: PointsDb, req: SendRequest, adapter: SendAdapter, dailyLimit: int)
    requires adapter.txInsertOk && req.points >= 0
    ensures TodayRemaining(SendPoints(db, req, adapter).db.transactions, true, req.fromUserId, adapter.now, dailyLimit)
         == Max(0, TodayRemaining(db.transactions, true, req.fromUserId, adapter.now, dailyLimit) - req.points)
  {
    var t := PointTransaction(adapter.txId, req.fromUserId, req.toUserId, req.pointType, req.points,
                              req.goodjobCategoryId, req.goodjobFreeText, req.message, adapter.now);
    assert SendPoints(db, req, adapter).db.transactions == db.transactions + [t];
    TodaySendLowersRemaining(db.transactions, t, req.fromUserId, adapter.now, dailyLimit);
  }

  /** A successful send gives the recipient exactly one more unread
      notification when the notification insert succeeded, and none
      otherwise; nobody else's unread count changes. */
  lemma SendNotifiesRecipientOnce(db: PointsDb, req: SendRequest, adapter: SendAdapter, other: Id)
    requires adapter.txInsertOk
    requires other != req.toUserId
    ensures Notifications.CountUnread(SendPoints(db, req, adapter).db.notifications, req.toUserId)
         == Notifications.CountUnread(db.notifications, req.toUserId) + (if adapter.notificationInsertOk then 1 else 0)
    ensures Notifications.CountUnread(SendPoints(db, req, adapter).db.notifications, other)
         == Notifications.CountUnread(db.notifications, other)
  {
    Notifications.CreateNotificationCountsOnce(
      db.notifications, req.toUserId, PointReceivedKind, ReceivedTitle(req.pointType), ReceivedBody(req.points),
      Some(PointPayload(req.fromUserId, req.points, req.pointType)),
      adapter.notificationId, adapter.now, adapter.notificationInsertOk, other);
  }

  /** The allowance is advisory only: with the whole limit already spent
      today a further send still succeeds and is recorded. */
  lemma SendIgnoresExhaustedAllowance(db: PointsDb, req: SendRequest, adapter: SendAdapter)
    requires adapter.txInsertOk && req.points > 0
    requires TodayRemaining(db.transactions, true, req.fromUserId, adapter.now, DefaultDailyLimit) == 0
    ensures SendPoints(db, req, adapter).ok
    ensures SentTodayTotal(SendPoints(db, req, adapter).db.transactions, req.fromUserId, adapter.now) > DefaultDailyLimit
  {
    var out := SendPoints(db, req, adapter);
    var t := out.db.transactions[|db.transactions|];
    var d := StartOfDay(adapter.now);
    assert out.db.transactions == db.transactions + [t];
    SentTodayRowsAppend(db.transactions, [t], req.fromUserId, d);
    assert SentTodayRows([t], req.fromUserId, d) == [t] by {
      assert [t][..0] == [];
    }
    SumPointsAppend(SentTodayRows(db.transactions, req.fromUserId, d), [t]);
    assert SumPoints([t]) == t.points by {
      assert [t][..0] == [];
    }
  }

  // ---------------------------------------------------------------------
  // Point summary
  // ---------------------------------------------------------------------

  const ZeroSummary: PointSummary := PointSummary(0, 0, 0, 0)

  /** A row of the `user_point_summary` view. */
  datatype SummaryRow = SummaryRow(userId: Id, summary: PointSummary)

  /** The summaries the view holds for `userId`, in view order. */
  function SummariesOf(view: seq<SummaryRow>, userId: Id): (r: seq<PointSummary>)
    ensures |r| <= |view|
    ensures forall s :: s in r <==> SummaryRow(userId, s) in view
    ensures forall s :: multiset(r)[s] == multiset(view)[SummaryRow(userId, s)]
    decreases |view|
  {
    if |view| == 0 then []
    else
      var init := SummariesOf(view[..|view| - 1], userId);
      var last := view[|view| - 1];
      assert view == view[..|view| - 1] + [last];
      assert multiset(view) == multiset(view[..|view| - 1]) + multiset{last};
      if last.userId == userId then init + [last.summary] else init
  }

  /** `getPointSummary`: the user's row of the summary view, or all four
      counters 0 when the query fails or `.single()` does not find exactly
      one row (no row, or several). */
  function GetPointSummary(view: seq<SummaryRow>, queryOk: bool, userId: Id): (s: PointSummary)
    ensures !queryOk ==> s == ZeroSummary
    ensures queryOk && |SummariesOf(view, userId)| == 1 ==> SummaryRow(userId, s) in view
    ensures queryOk && |SummariesOf(view, userId)| != 1 ==> s == ZeroSummary
    ensures (forall i :: 0 <= i < |view| ==> view[i].userId != userId) ==> s == ZeroSummary
  {
    var found := SummariesOf(view, userId);
    if queryOk && |found| == 1 then
      assert found[0] in found;
      found[0]
    else ZeroSummary
  }
}

=== FILE: missions.dfy ===
/** Daily store missions (`lib/database.ts`): creation and the progress
    update, over the `missions` table as a sequence of rows. */
module Missions {
  import opened Wrappers
  import opened Domain

  /** The fields an administrator supplies to `createMission`. */
  datatype NewMission = NewMission(
    storeId: Id,
    name: string,
    description: Option<string>,
    icon: string,
    targetValue: Option<int>,
    targetDate: int,
    points: int,
    createdBy: Id)

  /** `createMission`: the inserted row starts with progress 0 and status
      `active`, every supplied field copied; null when the insert fails. */
  function CreateMission(input: NewMission, newId: Id, now: Instant, insertOk: bool): (r: Option<Mission>)
    ensures r.Some? <==> insertOk
    ensures r.Some? ==> var m := r.value;
      && m.id == newId && m.currentValue == 0 && m.status == Active
      && m.storeId == input.storeId && m.name == input.name && m.description == input.description
      && m.icon == input.icon && m.targetValue == input.targetValue && m.targetDate == input.targetDate
      && m.points == input.points && m.createdBy == input.createdBy && m.createdAt == now
  {
    if insertOk then
      Some(Mission(newId, input.storeId, input.name, input.description, input.icon, input.targetValue,
                   0, input.targetDate, input.points, Active, input.createdBy, now))
    else None
  }

  /** The completion test of `updateMissionProgress`: the target must be
      present and non-zero (JavaScript truthiness) and reached. */
  predicate ReachesTarget(targetValue: Option<int>, value: int) {
    targetValue.Some? && targetValue.value != 0 && value >= targetValue.value
  }

  /** A mission whose status agrees with its own progress. */
  predicate StatusMatchesProgress(m: Mission) {
    m.status == Completed <==> ReachesTarget(m.targetValue, m.currentValue)
  }

  function CountWithId(missions: seq<Mission>, missionId: Id): (c: nat)
    ensures c <= |missions|
    ensures c == 0 <==> forall i :: 0 <= i < |missions| ==> missions[i].id != missionId
    decreases |missions|
  {
    if |missions| == 0 then 0
    else CountWithId(missions[..|missions| - 1], missionId) + (if missions[|missions| - 1].id == missionId then 1 else 0)
  }

  /** The first row with the id, if any. */
  function FindMission(missions: seq<Mission>, missionId: Id): (r: Option<Mission>)
    ensures r.Some? <==> exists i :: 0 <= i < |missions| && missions[i].id == missionId
    ensures r.Some? ==> r.value in missions && r.value.id == missionId
    decreases |missions|
  {
    if |missions| == 0 then None
    else if missions[0].id == missionId then Some(missions[0])
    else
      var rest := FindMission(missions[1..], missionId);
      assert forall i :: 1 <= i < |missions| ==> missions[i] == missions[1..][i - 1];
      rest
  }

  /** The `select('target_value') ... .single()` step: the mission's target
      when the query succeeds and exactly one row has the id, otherwise the
      `mission` variable is null and no target is seen. */
  function LookupTarget(missions: seq<Mission>, missionId: Id, selectOk: bool): Option<int> {
    if selectOk && CountWithId(missions, missionId) == 1 then FindMission(missions, missionId).value.targetValue
    else None
  }

  /** The status the update writes. */
  function NewStatus(missions: seq<Mission>, missionId: Id, selectOk: bool, currentValue: int): (s: MissionStatus)
    ensures s == Active || s == Completed
    ensures s == Completed <==>
      selectOk && CountWithId(missions, missionId) == 1
      && ReachesTarget(FindMission(missions, missionId).value.targetValue, currentValue)
  {
    if ReachesTarget(LookupTarget(missions, missionId, selectOk), currentValue) then Completed else Active
  }

  /** `updateMissionProgress`: `currentValue` is an absolute value, written
      with the recomputed status to every row with the id; nothing else
      changes. The result is whether the update reported no error (an
      update that matches no row is not an error). */
  function UpdateMissionProgress(missions: seq<Mission>, missionId: Id, currentValue: int, selectOk: bool, updateOk: bool)
    : (w: Written<Mission>)
    ensures w.ok == updateOk
    ensures !updateOk ==> w.table == missions
    ensures |w.table| == |missions|
    ensures forall i :: 0 <= i < |missions| && missions[i].id != missionId ==> w.table[i] == missions[i]
    ensures updateOk ==> forall i :: 0 <= i < |missions| && missions[i].id == missionId ==>
      w.table[i] == missions[i].(currentValue := currentValue,
                                 status := NewStatus(missions, missionId, selectOk, currentValue))
  {
    if !updateOk then Written(false, missions)
    else
      var status := NewStatus(missions, missionId, selectOk, currentValue);
      Written(true, seq(|missions|, i requires 0 <= i < |missions| =>
        if missions[i].id == missionId then missions[i].(currentValue := currentValue, status := status)
        else missions[i]))
  }

  /** When the mission is found, the updated row's status agrees with its
      new progress, whatever the status was before: `completed` iff the
      target is non-null, non-zero and reached. A lower value therefore
      turns a completed mission back to `active`. */
  lemma UpdateSetsStatusFromProgress(missions: seq<Mission>, i: nat, currentValue: int)
    requires i < |missions| && CountWithId(missions, missions[i].id) == 1
    ensures var m := UpdateMissionProgress(missions, missions[i].id, currentValue, true, true).table[i];
      && m.currentValue == currentValue
      && StatusMatchesProgress(m)
      && (m.status == Completed <==> ReachesTarget(missions[i].targetValue, currentValue))
  {
    UniqueIdFound(missions, i);
  }

  /** With exactly one row carrying the id, that row is the one found. */
  lemma {:induction false} UniqueIdFound(missions: seq<Mission>, i: nat)
    requires i < |missions| && CountWithId(missions, missions[i].id) == 1
    ensures FindMission(missions, missions[i].id) == Some(missions[i])
    decreases |missions|
  {
    var id := missions[i].id;
    var n := |missions|;
    if i < n - 1 {
      var init := missions[..n - 1];
      assert init[i] == missions[i];
      assert CountWithId(init, id) >= 1;
      UniqueIdFound(init, i);
      FindPrefix(missions, id);
    } else {
      assert CountWithId(missions[..n - 1], id) == 0;
      assert forall j :: 0 <= j < n - 1 ==> missions[..n - 1][j] == missions[j];
      FindLast(missions, id);
    }
  }

  /** Finding in a sequence agrees with finding in its prefix when the
      prefix holds the id. */
  lemma {:induction false} FindPrefix(missions: seq<Mission>, missionId: Id)
    requires |missions| > 0 && FindMission(missions[..|missions| - 1], missionId).Some?
    ensures FindMission(missions, missionId) == FindMission(missions[..|missions| - 1], missionId)
    decreases |missions|
  {
    var init := missions[..|missions| - 1];
    if missions[0].id != missionId {
      assert init[0] == missions[0];
      assert missions[1..][..|missions[1..]| - 1] == init[1..];
      FindPrefix(missions[1..], missionId);
    }
  }

  /** When only the last row holds the id, it is the one found. */
  lemma {:induction false} FindLast(missions: seq<Mission>, missionId: Id)
    requires |missions| > 0 && missions[|missions| - 1].id == missionId
    requires forall j :: 0 <= j < |missions| - 1 ==> missions[j].id != missionId
    ensures FindMission(missions, missionId) == Some(missions[|missions| - 1])
    decreases |missions|
  {
    if |missions| > 1 {
      FindLast(missions[1..], missionId);
    }
  }

  /** A progress update never changes ids, so the rows carrying an id stay
      the same rows. */
  lemma {:induction false} UpdateKeepsIdCount(missions: seq<Mission>, missionId: Id, currentValue: int, selectOk: bool, updateOk: bool, id: Id)
    ensures CountWithId(UpdateMissionProgress(missions, missionId, currentValue, selectOk, updateOk).table, id)
         == CountWithId(missions, id)
    decreases |missions|
  {
    var after := UpdateMissionProgress(missions, missionId, currentValue, selectOk, updateOk).table;
    if |missions| > 0 && updateOk {
      var init := missions[..|missions| - 1];
      var status := NewStatus(missions, missionId, selectOk, currentValue);
      var after' := seq(|init|, i requires 0 <= i < |init| =>
        if init[i].id == missionId then init[i].(currentValue := currentValue, status := status) else init[i]);
      assert after[..|missions| - 1] == after';
      IdPreservingCount(init, after', id);
    }
  }

  /** Sequences whose rows carry the same ids pointwise hold each id equally often. */
  lemma {:induction false} IdPreservingCount(a: seq<Mission>, b: seq<Mission>, id: Id)
    requires |a| == |b| && forall i :: 0 <= i < |a| ==> a[i].id == b[i].id
    ensures CountWithId(a, id) == CountWithId(b, id)
    decreases |a|
  {
    if |a| > 0 {
      IdPreservingCount(a[..|a| - 1], b[..|b| - 1], id);
    }
  }

  /** A successful update does not change what the next update's status
      test sees: the same rows carry the id and the same target. */
  lemma UpdateKeepsNewStatus(missions: seq<Mission>, missionId: Id, currentValue: int, selectOk: bool, value: int)
    ensures var once := UpdateMissionProgress(missions, missionId, currentValue, selectOk, true).table;
      NewStatus(once, missionId, selectOk, value) == NewStatus(missions, missionId, selectOk, value)
  {
    var once := UpdateMissionProgress(missions, missionId, currentValue, selectOk, true).table;
    UpdateKeepsIdCount(missions, missionId, currentValue, selectOk, true, missionId);
    if CountWithId(missions, missionId) == 1 {
      var i :| 0 <= i < |missions| && missions[i].id == missionId;
      UniqueIdFound(missions, i);
      assert once[i].id == missionId;
      UniqueIdFound(once, i);
    }
  }

  /** Repeating a successful update with the same value changes nothing:
      the update is idempotent. */
  lemma UpdateIdempotent(missions: seq<Mission>, missionId: Id, currentValue: int, selectOk: bool)
    ensures var once := UpdateMissionProgress(missions, missionId, currentValue, selectOk, true).table;
      UpdateMissionProgress(once, missionId, currentValue, selectOk, true).table == once
  {
    var once := UpdateMissionProgress(missions, missionId, currentValue, selectOk, true).table;
    var twice := UpdateMissionProgress(once, missionId, currentValue, selectOk, true).table;
    UpdateKeepsNewStatus(missions, missionId, currentValue, selectOk, currentValue);
    forall i | 0 <= i < |once|
      ensures twice[i] == once[i]
    {
    }
  }

  /** A mission created with a fresh id and then updated completes exactly
      when the update reaches its non-zero target. */
  lemma CreatedMissionCompletesAtTarget(missions: seq<Mission>, input: NewMission, newId: Id, now: Instant, value: int)
    requires forall i :: 0 <= i < |missions| ==> missions[i].id != newId
    ensures var table := missions + [CreateMission(input, newId, now, true).value];
      var m := UpdateMissionProgress(table, newId, value, true, true).table[|missions|];
      && m.currentValue == value
      && (m.status == Completed <==> ReachesTarget(input.targetValue, value))
  {
    var table := missions + [CreateMission(input, newId, now, true).value];
    assert table[..|missions|] == missions;
    UpdateSetsStatusFromProgress(table, |missions|, value);
  }
}

=== FILE: notifications.dfy ===
/** The `notifications` table: insertion, the unread count query and
    marking a notification read (`lib/database.ts`). */
module Notifications {
  import opened Wrappers
  import opened Domain

  predicate UnreadFor(n: Notification, userId: Id) {
    n.userId == userId && !n.isRead
  }

  /** How many notifications of `userId` are unread. */
  function CountUnread(rows: seq<Notification>, userId: Id): (c: nat)
    ensures c <= |rows|
    ensures c == 0 <==> forall i :: 0 <= i < |rows| ==> !UnreadFor(rows[i], userId)
    decreases |rows|
  {
    if |rows| == 0 then 0
    else CountUnread(rows[..|rows| - 1], userId)
         + (if UnreadFor(rows[|rows| - 1], userId) then 1 else 0)
  }

  lemma {:induction false} CountUnreadAppend(a: seq<Notification>, b: seq<Notification>, userId: Id)
    ensures CountUnread(a + b, userId) == CountUnread(a, userId) + CountUnread(b, userId)
    decreases |b|
  {
    if |b| > 0 {
      var b' := b[..|b| - 1];
      assert (a + b)[..|a + b| - 1] == a + b';
      CountUnreadAppend(a, b', userId);
    } else {
      assert a + b == a;
    }
  }

  /** `getUnreadCount`: the exact count, or 0 when the query fails. */
  function GetUnreadCount(rows: seq<Notification>, queryOk: bool, userId: Id): (c: nat)
    ensures !queryOk ==> c == 0
    ensures queryOk ==> c == CountUnread(rows, userId)
  {
    if queryOk then CountUnread(rows, userId) else 0
  }

  /** `createNotification`: inserts one unread row; the result is whether the
      insert succeeded, and a failed insert leaves the table unchanged. */
  function CreateNotification(
    rows: seq<Notification>, userId: Id, kind: string, title: string, body: string,
    data: Option<PointPayload>, newId: Id, now: Instant, insertOk: bool): (w: Written<Notification>)
    ensures w.ok == insertOk
    ensures !insertOk ==> w.table == rows
    ensures insertOk ==> |w.table| == |rows| + 1 && w.table[..|rows|] == rows
    ensures insertOk ==> var n := w.table[|rows|];
      n.userId == userId && n.kind == kind && n.title == title && n.body == body
      && n.data == data && !n.isRead && n.createdAt == now
  {
    if insertOk then
      Written(true, rows + [Notification(newId, userId, kind, title, body, data, false, now)])
    else Written(false, rows)
  }

  /** A successful insert raises the recipient's unread count by exactly one
      and leaves every other user's count unchanged. */
  lemma CreateNotificationCountsOnce(
    rows: seq<Notification>, userId: Id, kind: string, title: string, body: string,
    data: Option<PointPayload>, newId: Id, now: Instant, insertOk: bool, other: Id)
    requires other != userId
    ensures var w := CreateNotification(rows, userId, kind, title, body, data, newId, now, insertOk);
      && CountUnread(w.table, userId) == CountUnread(rows, userId) + (if insertOk then 1 else 0)
      && CountUnread(w.table, other) == CountUnread(rows, other)
  {
    var w := CreateNotification(rows, userId, kind, title, body, data, newId, now, insertOk);
    if insertOk {
      CountUnreadAppend(rows, [w.table[|rows|]], userId);
      CountUnreadAppend(rows, [w.table[|rows|]], other);
      assert w.table == rows + [w.table[|rows|]];
    }
  }

  /** `markNotificationAsRead`: sets `isRead` on every row with the id and
      changes nothing else; on an adapter error the table is unchanged. */
  function MarkAsRead(rows: seq<Notification>, notificationId: Id, updateOk: bool): (w: Written<Notification>)
    ensures w.ok == updateOk
    ensures |w.table| == |rows|
    ensures forall i :: 0 <= i < |rows| ==>
      w.table[i] == if updateOk && rows[i].id == notificationId then rows[i].(isRead := true) else rows[i]
  {
    if updateOk then
      Written(true, seq(|rows|, i requires 0 <= i < |rows| =>
        if rows[i].id == notificationId then rows[i].(isRead := true) else rows[i]))
    else Written(false, rows)
  }

  /** How many rows carry `notificationId` and are unread for `userId`. */
  function UnreadWithId(rows: seq<Notification>, notificationId: Id, userId: Id): (c: nat)
    ensures c == 0 <==> forall i :: 0 <= i < |rows| ==> !(rows[i].id == notificationId && UnreadFor(rows[i], userId))
    decreases |rows|
  {
    if |rows| == 0 then 0
    else UnreadWithId(rows[..|rows| - 1], notificationId, userId)
         + (if rows[|rows| - 1].id == notificationId && UnreadFor(rows[|rows| - 1], userId) then 1 else 0)
  }

  /** Marking one notification read lowers its owner's unread count by
      exactly the number of unread rows carrying that id, and an unknown id
      leaves the table unchanged. */
  lemma {:induction false} MarkAsReadLowersCount(rows: seq<Notification>, notificationId: Id, userId: Id)
    ensures var after := MarkAsRead(rows, notificationId, true).table;
      CountUnread(after, userId) == CountUnread(rows, userId) - UnreadWithId(rows, notificationId, userId)
    ensures (forall i :: 0 <= i < |rows| ==> rows[i].id != notificationId) ==>
      MarkAsRead(rows, notificationId, true).table == rows
    decreases |rows|
  {
    if |rows| > 0 {
      var init := rows[..|rows| - 1];
      var after := MarkAsRead(rows, notificationId, true).table;
      assert after[..|rows| - 1] == MarkAsRead(init, notificationId, true).table;
      MarkAsReadLowersCount(init, notificationId, userId);
    }
  }

  /** With the id carried by exactly one row, which is unread for `userId`,
      exactly one row counts as unread with that id. */
  lemma {:induction false} UnreadWithIdSingle(rows: seq<Notification>, notificationId: Id, userId: Id, k: nat)
    requires k < |rows| && rows[k].id == notificationId && UnreadFor(rows[k], userId)
    requires forall i :: 0 <= i < |rows| && i != k ==> rows[i].id != notificationId
    ensures UnreadWithId(rows, notificationId, userId) == 1
    decreases |rows|
  {
    var init := rows[..|rows| - 1];
    if k < |rows| - 1 {
      UnreadWithIdSingle(init, notificationId, userId, k);
    } else {
      assert forall i :: 0 <= i < |init| ==> init[i].id != notificationId;
    }
  }

  /** The database side of the page's `decrementUnread`: marking read the
      one unread row carrying an id lowers its owner's count by one. */
  lemma MarkAsReadDecrementsByOne(rows: seq<Notification>, notificationId: Id, userId: Id, k: nat)
    requires k < |rows| && rows[k].id == notificationId && UnreadFor(rows[k], userId)
    requires forall i :: 0 <= i < |rows| && i != k ==> rows[i].id != notificationId
    ensures CountUnread(MarkAsRead(rows, notificationId, true).table, userId) == CountUnread(rows, userId) - 1
  {
    MarkAsReadLowersCount(rows, notificationId, userId);
    UnreadWithIdSingle(rows, notificationId, userId, k);
  }
}

=== FILE: text.dfy ===
/** Decimal rendering of integers, as JavaScript prints an integral
    `number` inside a template literal (`${n}`), together with the
    parser that inverts it. */
module Text {

  predicate IsDigit(c: char) {
    '0' <= c <= '9'
  }

  predicate AllDigits(s: string) {
    forall i :: 0 <= i < |s| ==> IsDigit(s[i])
  }

  function DigitChar(d: nat): (c: char)
    requires d < 10
    ensures IsDigit(c)
  {
    ('0' as int + d) as char
  }

  function DigitValue(c: char): (d: nat)
    requires IsDigit(c)
    ensures d < 10
  {
    c as int - '0' as int
  }

  /** The shortest decimal numeral of `n`: at least one digit, and no
      leading zero unless `n` is zero. */
  function Decimal(n: nat): (s: string)
    ensures 1 <= |s|
    ensures AllDigits(s)
    ensures |s| > 1 ==> s[0] != '0'
    ensures n < 10 <==> |s| == 1
    decreases n
  {
    if n < 10 then [DigitChar(n)] else Decimal(n / 10) + [DigitChar(n % 10)]
  }

  /** The numeral of an integer, with a leading '-' when it is negative. */
  function IntString(n: int): (s: string)
    ensures 1 <= |s|
    ensures n < 0 <==> s[0] == '-'
    ensures n >= 0 ==> s == Decimal(n)
  {
    if n < 0 then "-" + Decimal(-n) else Decimal(n)
  }

  /** The value of a non-empty numeral. */
  function ParseDecimal(s: string): nat
    requires 1 <= |s| && AllDigits(s)
    decreases |s|
  {
    if |s| == 1 then DigitValue(s[0])
    else ParseDecimal(s[..|s| - 1]) * 10 + DigitValue(s[|s| - 1])
  }

  /** Reading back a rendered numeral gives the number that was rendered. */
  lemma {:induction false} ParseDecimalInvertsDecimal(n: nat)
    ensures ParseDecimal(Decimal(n)) == n
    decreases n
  {
    if n >= 10 {
      var s := Decimal(n);
      var prefix := Decimal(n / 10);
      assert s == prefix + [DigitChar(n % 10)];
      assert s[..|s| - 1] == prefix;
      ParseDecimalInvertsDecimal(n / 10);
    }
  }

  /** Two numbers render to the same numeral only when they are equal. */
  lemma DecimalInjective(m: nat, n: nat)
    requires Decimal(m) == Decimal(n)
    ensures m == n
  {
    ParseDecimalInvertsDecimal(m);
    ParseDecimalInvertsDecimal(n);
  }
}

=== FILE: user_actions.dfy ===
/** The administrator's user-creation action (`lib/user-actions.ts`): create
    the identity-provider account, then the `users` row, with no rollback
    of the account when the row cannot be written. */
module UserActions {
  import opened Wrappers
  import opened Domain
  import Users

  /** The form fields the administrator submits. */
  datatype AdminUserInput = AdminUserInput(
    email: string,
    password: string,
    name: string,
    nickname: string,
    role: Role,
    primaryStoreId: Id)

  /** An account of the identity provider. */
  datatype AuthAccount = AuthAccount(id: Id, email: string)

  /** The identity provider's answer to the admin create call: an error with
      its message, or data whose `user` may be null. */
  datatype AuthCreateAnswer = AuthError(message: string) | AuthData(user: Option<AuthAccount>)

  /** The answers of the adapters the action calls. `auth` is `Threw` when
      building the admin client or the create call throws. */
  datatype ActionAnswers = ActionAnswers(auth: Step<AuthCreateAnswer>, dbInsertOk: bool, newUserId: Id, now: Instant)

  datatype ActionResult = ActionSucceeded(user: User) | ActionFailed(error: string)

  /** The result and both stores after the action. */
  datatype ActionOutcome = ActionOutcome(result: ActionResult, accounts: seq<AuthAccount>, users: seq<User>)

  const NoAuthUserError: string := "User creation failed in Auth"
  const DbWriteError: string := "User metadata could not be saved to database"
  const InternalError: string := "Internal server error"

  /** `nickname || name`: an empty nickname falls back to the name. */
  function NicknameOrName(input: AdminUserInput): string {
    if input.nickname != "" then input.nickname else input.name
  }

  /** The `createUser` argument built from the form and the new account; the
      password is not part of it. */
  function DbUserFields(input: AdminUserInput, account: AuthAccount): (n: Users.NewUser)
    ensures n.authId == Some(account.id)
    ensures n.email == input.email && n.name == input.name && n.role == input.role
    ensures n.primaryStoreId == input.primaryStoreId
    ensures n.nickname == (if input.nickname == "" then input.name else input.nickname)
  {
    Users.NewUser(input.email, input.name, NicknameOrName(input), input.role, input.primaryStoreId, Some(account.id))
  }

  /** `adminCreateUserAction`. */
  function AdminCreateUser(input: AdminUserInput, answers: ActionAnswers, accounts: seq<AuthAccount>, users: seq<User>)
    : (out: ActionOutcome)
    ensures answers.auth.Threw? ==> out == ActionOutcome(
      ActionFailed(if answers.auth.message == "" then InternalError else answers.auth.message), accounts, users)
    ensures answers.auth.Returned? && answers.auth.value.AuthError? ==>
      out == ActionOutcome(ActionFailed(answers.auth.value.message), accounts, users)
    ensures answers.auth == Returned(AuthData(None)) ==>
      out == ActionOutcome(ActionFailed(NoAuthUserError), accounts, users)
    ensures answers.auth.Returned? && answers.auth.value.AuthData? && answers.auth.value.user.Some? ==>
      var account := answers.auth.value.user.value;
      && out.accounts == accounts + [account]
      && (!answers.dbInsertOk ==> out.result == ActionFailed(DbWriteError) && out.users == users)
      && (answers.dbInsertOk ==> out.result.ActionSucceeded? && out.users == users + [out.result.user])
      && (answers.dbInsertOk ==>
           && out.result.user.authId == Some(account.id)
           && out.result.user.id == answers.newUserId
           && out.result.user.avatarId == Users.DefaultAvatarId
           && out.result.user.rank == 1 && out.result.user.isActive
           && out.result.user.createdAt == answers.now)
    ensures out.result.ActionSucceeded? ==>
      var u := out.result.user;
      && u.authId.Some? && (exists k :: 0 <= k < |out.accounts| && out.accounts[k].id == u.authId.value)
      && u.email == input.email && u.name == input.name && u.role == input.role
      && u.primaryStoreId == Some(input.primaryStoreId)
      && u.nickname == (if input.nickname == "" then input.name else input.nickname)
  {
    match answers.auth
    case Threw(message) =>
      ActionOutcome(ActionFailed(if message == "" then InternalError else message), accounts, users)
    case Returned(AuthError(message)) =>
      ActionOutcome(ActionFailed(message), accounts, users)
    case Returned(AuthData(None)) =>
      ActionOutcome(ActionFailed(NoAuthUserError), accounts, users)
    case Returned(AuthData(Some(account))) =>
      var accounts' := accounts + [account];
      assert accounts'[|accounts|] == account;
      match Users.CreateUser(DbUserFields(input, account), answers.newUserId, answers.now, answers.dbInsertOk)
      case None => ActionOutcome(ActionFailed(DbWriteError), accounts', users)
      case Some(dbUser) => ActionOutcome(ActionSucceeded(dbUser), accounts', users + [dbUser])
  }

  /** The two inputs differ at most in the password. */
  predicate SameButPassword(a: AdminUserInput, b: AdminUserInput) {
    a.(password := b.password) == b
  }

  /** The password never reaches the database: two submissions that differ
      only in the password produce the same result and the same `users`
      table. */
  lemma PasswordNeverStored(a: AdminUserInput, b: AdminUserInput, answers: ActionAnswers, accounts: seq<AuthAccount>, users: seq<User>)
    requires SameButPassword(a, b)
    ensures AdminCreateUser(a, answers, accounts, users).result == AdminCreateUser(b, answers, accounts, users).result
    ensures AdminCreateUser(a, answers, accounts, users).users == AdminCreateUser(b, answers, accounts, users).users
  {
    assert NicknameOrName(a) == NicknameOrName(b);
  }

  /** The dual write: the `users` table grows exactly when the action
      succeeds, and an account is created without a matching row exactly
      when the provider returned a user but the row could not be written;
      that account is left in place. */
  lemma DualWriteOutcome(input: AdminUserInput, answers: ActionAnswers, accounts: seq<AuthAccount>, users: seq<User>)
    ensures var out := AdminCreateUser(input, answers, accounts, users);
      && (|out.users| > |users| <==> out.result.ActionSucceeded?)
      && (|out.accounts| > |accounts| && |out.users| == |users| <==>
           answers.auth.Returned? && answers.auth.value.AuthData? && answers.auth.value.user.Some? && !answers.dbInsertOk)
      && (|out.accounts| == |accounts| ==> out.accounts == accounts && out.users == users && out.result.ActionFailed?)
  {
  }
}

=== FILE: users.dfy ===
/** Creating a row of `users` (`createUser` in `lib/database.ts`). */
module Users {
  import opened Wrappers
  import opened Domain

  /** The fields `createUser` receives. */
  datatype NewUser = NewUser(
    email: string,
    name: string,
    nickname: string,
    role: Role,
    primaryStoreId: Id,
    authId: Option<Id>)

  const DefaultAvatarId: string := "default_01"

  /** `createUser`: the inserted row carries the supplied fields plus the
      defaults avatar `default_01`, rank 1 and active; every optional
      profile field starts null. The result is null when the insert fails. */
  function CreateUser(input: NewUser, newId: Id, now: Instant, insertOk: bool): (r: Option<User>)
    ensures r.Some? <==> insertOk
    ensures r.Some? ==> var u := r.value;
      && u.id == newId && u.email == input.email && u.name == input.name && u.nickname == input.nickname
      && u.role == input.role && u.primaryStoreId == Some(input.primaryStoreId) && u.authId == input.authId
      && u.avatarId == DefaultAvatarId && u.rank == 1 && u.isActive
      && u.profileText.None? && u.strengths.None? && u.weaknesses.None?
      && u.hobbies.None? && u.personalityType.None?
      && u.createdAt == now && u.updatedAt == now
  {
    if insertOk then
      Some(User(newId, input.authId, input.email, input.name, input.nickname, input.role,
                Some(input.primaryStoreId), DefaultAvatarId, 1, None, None, None, None, None, true, now, now))
    else None
  }
}

=== FILE: wrappers.dfy ===
/** Small result datatypes shared by every module of the model.

    The application talks to two external adapters (the hosted database and
    the identity provider).  Their answers are not computed here: each call
    site receives the adapter's answer as a parameter, shaped by one of the
    datatypes below. */
module Wrappers {

  /** A value that may be absent (a nullable column, a `.single()` lookup
      that found nothing). */
  datatype Option<+T> = None | Some(value: T)

  /** An awaited call that either returned a value or threw an exception
      carrying a message (the message may be empty). */
  datatype Step<+T> = Returned(value: T) | Threw(message: string)

  /** The outcome of a write to one table: whether the adapter reported
      success, and the table's contents afterwards. */
  datatype Written<T> = Written(ok: bool, table: seq<T>)
}
